=== FILE: README.md ===
# MBTI arcade: a verified model of the request core

MBTI arcade is a FastAPI web application. A person takes an MBTI-style
questionnaire about themselves and shares an invite link. Friends, coworkers,
partners and family rate that person through the link. Once at least three
raters have answered, the owner unlocks per-relation aggregates such as the
"perception gap index" (PGI).

This project models the request-handling core of that application in Dafny
and proves properties of the model:

- **Middleware.**
  - The fallback `X-Forwarded-*` proxy middleware is a `class Scope` whose
    `scheme`, `server` and `client` fields are updated in place.
  - The trusted-host middleware is modelled by its constructor checks, its
    host matching and its forward / `www.` redirect / 400 decision.
- **Questionnaire selection.** This covers:
  - the question payload dictionary and its inverse;
  - `questions_for_mode`: a context filter, then a sort by id;
  - the invite allowlist of 20 codes per relation (`F-EI-01` … `G-JP-05`);
  - the "exactly twenty, none missing" rule for invite questionnaires.
- **Scoring.** `_score_answers` turns axis norms into 0–100 letter scores
  with Python's round-half-even, and picks the letters of the type.
- **Relations.** The relation tables, canonicalisation and label fallback
  chains.
- **Result page.**
  - The unlock threshold hides `top_type` and `pgi` below three respondents.
  - The average PGI gives a three-level burnout message.
  - The report meta data falls back in order: snapshot name, then friend
    name, then "공유자".
- **Invite page gate.** An expired invite answers 410, checked before the
  capacity; a full invite answers 429. A timezone-naive expiry is read as UTC.
- **Invite status endpoint.** Unknown tokens answer 404. The response reports
  the respondent count, unlock state and last submission time, with
  no-store headers.
- **Owner pages.**
  - Cookie authentication by a hash of the owner token.
  - The `/o/{token}` exchange that sets the cookie and redirects to `/me`.
  - The progress percentage, and the relation rows sorted by relation.
- **SQLite schema repair.** This covers:
  - percent-decoding of the database URL, and the `:memory:` exclusion;
  - candidate paths, deduplicated after resolution in first-seen order;
  - adding the four missing columns only when absent;
  - the OR-merge of the per-file reports.
  The set of database files is a `class Disk` whose `databases` map the
  repair methods update.

Dates are whole seconds plus an optional UTC offset. Databases are
sequences of records. Hashing, path resolution, `ensure_session_active` and
`build_invite_url` are function parameters.

Modules: `Wrappers` (Option/Result), `Http`, `Text` (Python string
operations), `Sorting` (stable sort and string order), `Collections`,
`Scoring`, `JsEscape`, `TrustedHost`, `ProxyHeaders`, `RelationTables`,
`Questions`, `SchemaRepair`, `Records`, `InviteGate`, `ResultReport`,
`InviteStatus`, `Owner`.

## Model

| member | source | states |
|---|---|---|
| ProxyHeaders.Scope.constructor | mbti-arcade/app/main.py:28 | the scope starts with the given scheme, server and client |
| ProxyHeaders.Scope.ApplyForwardedHeaders | mbti-arcade/app/main.py:28-57 | the new scheme, server and client are the forwarded-proto, forwarded-host and forwarded-for results, applied in that order; the server uses the already updated scheme |
| ProxyHeaders.Scope.ApplyForwardedProto | mbti-arcade/app/main.py:29-33 | the scheme becomes the first comma field of a non-empty `x-forwarded-proto`, stripped; nothing else changes |
| ProxyHeaders.Scope.ApplyForwardedHost | mbti-arcade/app/main.py:35-48 | the server is taken from `x-forwarded-host`, else `host`; scheme and client are unchanged |
| ProxyHeaders.Scope.ApplyForwardedFor | mbti-arcade/app/main.py:50-55 | the client address comes from the first `x-forwarded-for` field and the old port is kept; scheme and server are unchanged |
| ProxyHeaders.ServerNameNormalised | mbti-arcade/app/main.py:39-48 | a non-empty forwarded host always sets the server; its name is the lower-cased part before the first colon |
| ProxyHeaders.DefaultPort | mbti-arcade/app/main.py:46-47 | without a port, the server port is 443 under https and 80 otherwise |
| ProxyHeaders.ExplicitPort | mbti-arcade/app/main.py:41-48 | `host:port` with a decimal port gives `(lower(host), port)` |
| ProxyHeaders.ClientFromFirstForwardedFor | mbti-arcade/app/main.py:50-55 | the client becomes the first forwarded address, with the old port or 0 |
| ProxyHeaders.PartitionAtFirst | mbti-arcade/app/main.py:41 | `partition` splits at the first separator |
| ProxyHeaders.FirstFieldAtFirst | mbti-arcade/app/main.py:31 | `split(",")[0]` is the text before the first comma |
| ProxyHeaders.StripIsInfix | mbti-arcade/app/main.py:39 | stripping keeps only characters of the input |
| TrustedHost.FirstBadPattern | mbti-arcade/app/main.py:71-74 | the first pattern violating the wildcard rule is reported, or none iff every pattern is valid |
| TrustedHost.NewConfig | mbti-arcade/app/main.py:61-79 | `None` becomes `["*"]`; construction succeeds iff every pattern is valid; `allow_any` iff `*` is listed; otherwise the offending pattern is reported |
| TrustedHost.Dispatch | mbti-arcade/app/main.py:81-121 | allow-any or a non-HTTP scope forwards; otherwise: forward iff some pattern matches; redirect to `www.`+netloc iff none matches and `www.`+host is listed and the redirect is on; otherwise 400 `invalid-host` |
| TrustedHost.StarMatchesAnyHost | mbti-arcade/app/main.py:94-95 | the pattern `*` matches every host |
| TrustedHost.HostMatches | mbti-arcade/app/main.py:94-95 | a pattern without a leading `*` matches only the identical host |
| TrustedHost.WildcardMatchesSubdomainsOnly | mbti-arcade/app/main.py:94-95 | `*.d` matches `sub.d` but not `d` itself |
| TrustedHost.RequestHostHasNoPort | mbti-arcade/app/main.py:90 | the compared host has no colon and is a prefix of the Host header |
| JsEscape.EscapeJs | mbti-arcade/app/main.py:221-238 | `None` gives the empty string; otherwise the nine replacements are applied in table order |
| JsEscape.EscapedIsSafe | mbti-arcade/app/main.py:225-237 | the escaped text contains no raw newline, carriage return, tab, U+2028, U+2029 or `</` |
| JsEscape.EscapedHasNoCloseTag | mbti-arcade/app/main.py:232-237 | no `</` survives the whole table |
| JsEscape.EscapedHasNoControl | mbti-arcade/app/main.py:227-237 | no raw newline, carriage return or tab survives the whole table |
| JsEscape.EscapedHasNoSeparator | mbti-arcade/app/main.py:233-237 | no raw U+2028 or U+2029 survives the whole table |
| JsEscape.EscapedLacks | mbti-arcade/app/main.py:236-237 | a character that one replacement removes and no later replacement writes is absent from the result |
| JsEscape.ApplyAllSplit | mbti-arcade/app/main.py:236-237 | applying a table is applying its prefix, then its suffix |
| JsEscape.ApplyAllUnfolds | mbti-arcade/app/main.py:236-237 | the loop applies the replacements one after another, backslash first |
| JsEscape.NothingToEscape | mbti-arcade/app/main.py:221-238 | text without any special character comes back unchanged |
| JsEscape.ReplaceAbsent | mbti-arcade/app/main.py:237 | `str.replace` with an absent needle is the identity |
| JsEscape.ReplaceRemovesChar | mbti-arcade/app/main.py:237 | replacing a character by text without it removes every occurrence |
| JsEscape.ReplaceKeepsCharOut | mbti-arcade/app/main.py:237 | replacing never introduces a character that neither the text nor the replacement holds |
| JsEscape.ReplaceFirstChar | mbti-arcade/app/main.py:237 | a match at the start is replaced first; otherwise the result starts with the text's first character |
| JsEscape.NoCloseTagAfterReplace | mbti-arcade/app/main.py:232 | after the `</` replacement no `</` remains |
| JsEscape.CharReplaceKeepsNoCloseTag | mbti-arcade/app/main.py:233-234 | the later one-character replacements cannot recreate `</` |
| JsEscape.NoPairInConcat | mbti-arcade/app/main.py:237 | a two-character pattern absent from both parts and from their seam is absent from the concatenation |
| JsEscape.NoPairWithoutChar | mbti-arcade/app/main.py:237 | a pair whose first character is absent cannot occur |
| Scoring.RoundHalfEven | mbti-arcade/app/main.py:388 | Python's `round`: within one half of the input, and even on exact halves |
| Scoring.PrimaryScore | mbti-arcade/app/main.py:388 | the primary score lies in 0..100 and equals `round((axis+1)*50)` for axes in [-1, 1] |
| Scoring.ScoreAnswers | mbti-arcade/app/main.py:370-395 | no answers is an error; otherwise the loop's result equals the dimension-by-dimension specification |
| Scoring.ScoreOkIffAxesPresent | mbti-arcade/app/main.py:383-386 | scoring succeeds iff every known dimension has a norm (a missing one is a key error) |
| Scoring.ErrorPersists | mbti-arcade/app/main.py:383-386 | once a dimension fails, the whole scoring fails with that error |
| Scoring.ScoreSpec | mbti-arcade/app/main.py:383-392 | a failure names a dimension of the list missing from the norms; a success has at most one letter per dimension |
| Scoring.Handled | mbti-arcade/app/main.py:384-385 | the dimensions scored are exactly those with a letter pair |
| Scoring.LabelLetters | mbti-arcade/app/main.py:392-394 | the type has one letter per handled dimension, the primary one iff its score is at least the secondary one |
| Scoring.ScoresComplementary | mbti-arcade/app/main.py:388-391 | each pair of letter scores sums to 100 and each lies in 0..100 |
| Scoring.ScoreKeys | mbti-arcade/app/main.py:390-391 | the score keys are exactly the letters of the handled dimensions |
| Scoring.PrimaryWinsIff | mbti-arcade/app/main.py:388-392 | the primary letter wins iff the axis is at least -0.01 |
| Scoring.ScoreSnoc | mbti-arcade/app/main.py:383-392 | one more dimension adds its two scores and its letter |
| Scoring.NeutralAxesGiveEstj | mbti-arcade/app/main.py:284-289 | all-zero axes score 50/50 and give `ESTJ` |
| RelationTables.Canonical | mbti-arcade/app/main.py:200-210 | known values map to one of the five canonical relations; unknown ones pass through |
| RelationTables.CanonicalAliases | mbti-arcade/app/main.py:200-210 | lover, crush and spouse become partner; sibling becomes family; canonical names are fixed points |
| RelationTables.CanonicalIdempotent | mbti-arcade/app/main.py:200-210 | canonicalising twice equals canonicalising once |
| RelationTables.ResolveRelationQuestionMode | mbti-arcade/app/main.py:365-367 | every relation uses the friend question set |
| RelationTables.FormRelationLabel | mbti-arcade/app/main.py:583-589 | a raw value with a label gets it; every canonicalisable value gets a table label; anything else is shown as is |
| RelationTables.ResultRelationLabel | mbti-arcade/app/main.py:764-770 | a label the form sent wins; without one, every known relation still gets a table label and an unknown one is shown as is |
| RelationTables.ResultRelationLabelAgrees | mbti-arcade/app/main.py:764-770 | when the form passes on its label, the result page shows what the form showed |
| Questions.QuestionPayload | mbti-arcade/app/data/questions.py:35-46 | the payload has exactly the nine seed keys |
| Questions.PayloadRoundTrip | mbti-arcade/app/data/questions.py:35-46 | reading a payload back gives the seed it came from |
| Questions.PayloadInjective | mbti-arcade/app/data/questions.py:35-46 | different seeds have different payloads |
| Questions.SeedsIn | mbti-arcade/app/data/questions.py:9-12 | the filtered seeds are exactly those whose context is in the set |
| Questions.SeedsInKeepsUniqueIds | mbti-arcade/app/data/questions.py:54-56 | filtering keeps ids unique |
| Questions.SortedSeedsIn | mbti-arcade/app/data/questions.py:54-57 | a permutation of the selected seeds, by id ascending |
| Questions.Payloads | mbti-arcade/app/data/questions.py:58 | one payload per seed, in order, carrying its id |
| Questions.QuestionsForMode | mbti-arcade/app/data/questions.py:49-52 | succeeds iff the lower-cased mode is known; otherwise `Unsupported mode` naming the mode |
| Questions.QuestionsForModeContents | mbti-arcade/app/data/questions.py:49-58 | the result holds exactly the payloads of seeds in the mode's contexts, ordered by id |
| Questions.QuestionsForModeStrict | mbti-arcade/app/data/questions.py:57 | with unique seed ids the ids strictly increase |
| Questions.Pad2 | mbti-arcade/app/data/questions.py:72 | `{ordinal:02d}` is two digits denoting the ordinal |
| Questions.AllowlistSeq | mbti-arcade/app/data/questions.py:71-75 | the enumeration has 4 x 5 = 20 entries |
| Questions.AllowlistSeqDistinct | mbti-arcade/app/data/questions.py:71-75 | the 20 generated codes are pairwise different |
| Questions.AllowlistSize | mbti-arcade/app/data/questions.py:71-75 | the allowlist set has 20 codes |
| Questions.AllowlistMembers | mbti-arcade/app/data/questions.py:71-75 | a code is allowed iff it is `prefix-dim-0n` for one of the four dimensions and n in 1..5 |
| Questions.AllowlistEntry | mbti-arcade/app/data/questions.py:72-74 | entry k is dimension k/5 with ordinal k%5+1 |
| Questions.SelectAllowed | mbti-arcade/app/data/questions.py:76 | keeps exactly the payloads whose code is allowed |
| Questions.SelectKeepsOrder | mbti-arcade/app/data/questions.py:76 | selection preserves the relative order of kept payloads |
| Questions.Codes | mbti-arcade/app/data/questions.py:77-83 | the codes of payloads whose code is a string, in order |
| Questions.SelectedCodesAllowed | mbti-arcade/app/data/questions.py:76-83 | every selected payload has a string code, and all are allowed |
| Questions.SelectExactly | mbti-arcade/app/data/questions.py:76-91 | succeeds iff exactly 20 are selected and no allowed code is missing; the result is the selection, and its codes are exactly the allowlist with no repeats |
| Questions.SelectInviteOtherQuestions | mbti-arcade/app/data/questions.py:61-91 | non-invite modes pass the payloads through; invite modes apply the 20-code selection for their prefix |
| Questions.DuplicateSelectionFails | mbti-arcade/app/data/questions.py:85 | two payloads with the same allowed code make the selection fail |
| Questions.DuplicateCodeRejected | mbti-arcade/app/data/questions.py:85-90 | the same holds for every invite mode |
| Questions.NonInviteModesPassThrough | mbti-arcade/app/data/questions.py:66-69 | `basic` and `Couple` return the input unchanged |
| SchemaRepair.HexValue | mbti-arcade/app/utils/sqlite_schema_repair.py:32 | a hex digit denotes a value below 16 |
| SchemaRepair.Quote | mbti-arcade/app/utils/sqlite_schema_repair.py:32 | the encoder `unquote` inverts: text of safe characters is kept, and the result is at most three times longer |
| SchemaRepair.UnquoteWithoutPercent | mbti-arcade/app/utils/sqlite_schema_repair.py:32 | `unquote` of text without `%` is the identity |
| SchemaRepair.UnquoteQuote | mbti-arcade/app/utils/sqlite_schema_repair.py:32 | `unquote` inverts the percent-encoding of every ASCII character outside the safe set |
| SchemaRepair.UnquoteEscape | mbti-arcade/app/utils/sqlite_schema_repair.py:32 | every `%XX` escape of an ASCII character decodes to that character, whatever follows |
| SchemaRepair.UnquotePlainPrefix | mbti-arcade/app/utils/sqlite_schema_repair.py:32 | text without `%` decodes to itself and leaves the decoding of the rest alone |
| SchemaRepair.Unquote | mbti-arcade/app/utils/sqlite_schema_repair.py:32 | decoding never lengthens the text and empties only the empty text; UnquoteEscape, UnquotePlainPrefix and UnquoteQuote state what it decodes |
| SchemaRepair.RawAfter | mbti-arcade/app/utils/sqlite_schema_repair.py:32-35 | the decoded path is never `:memory:` |
| SchemaRepair.RawPath | mbti-arcade/app/utils/sqlite_schema_repair.py:29-36 | a path is found only under one of the two SQLite prefixes, and never `:memory:`; RawPathRoundTrip and RawPathDecodesEscape state the decoding |
| SchemaRepair.RawPathRoundTrip | mbti-arcade/app/utils/sqlite_schema_repair.py:29-36 | a quoted path under either prefix decodes back to itself, except `:memory:`, which gives none |
| SchemaRepair.RawPathDecodesEscape | mbti-arcade/app/utils/sqlite_schema_repair.py:29-36 | an escaped character in the URL's path is that character in the file name, as `my%20db.sqlite` names `my db.sqlite` |
| SchemaRepair.MapResolve | mbti-arcade/app/utils/sqlite_schema_repair.py:51-52 | every candidate is resolved, in order |
| SchemaRepair.Dedupe | mbti-arcade/app/utils/sqlite_schema_repair.py:49-57 | no repeats, the same members, and no longer than the input |
| SchemaRepair.FirstIndex | mbti-arcade/app/utils/sqlite_schema_repair.py:53-56 | the first occurrence of a member |
| SchemaRepair.FirstIndexInPrefix | mbti-arcade/app/utils/sqlite_schema_repair.py:53-56 | a first occurrence inside a prefix is the same in the prefix |
| SchemaRepair.DedupeOrder | mbti-arcade/app/utils/sqlite_schema_repair.py:49-57 | kept paths appear in the order of their first occurrence |
| SchemaRepair.CandidatePaths | mbti-arcade/app/utils/sqlite_schema_repair.py:39-57 | an absolute path is the only candidate; otherwise the loop returns the resolved cwd, `/app` and `/app/mbti-arcade` joins, deduplicated in first-seen order |
| SchemaRepair.DedupeStep | mbti-arcade/app/utils/sqlite_schema_repair.py:51-56 | a resolved candidate is kept iff it was not seen before |
| SchemaRepair.CandidatePathsShape | mbti-arcade/app/utils/sqlite_schema_repair.py:44-57 | one to three distinct paths, the first being the resolved cwd join |
| SchemaRepair.GetColumns | mbti-arcade/app/utils/sqlite_schema_repair.py:8-10 | a missing table has no columns |
| SchemaRepair.WithColumn | mbti-arcade/app/utils/sqlite_schema_repair.py:20-25 | the table is unchanged when a column of that name exists, and is otherwise the old columns followed by exactly the new one |
| SchemaRepair.Repaired | mbti-arcade/app/utils/sqlite_schema_repair.py:60-106 | the repaired database has the same tables (RepairScope, RepairedHasColumns and RepairIdempotent pin it down) |
| SchemaRepair.Report | mbti-arcade/app/utils/sqlite_schema_repair.py:60-106 | only the four column keys are ever reported |
| SchemaRepair.ReportKeys | mbti-arcade/app/utils/sqlite_schema_repair.py:75-103 | the sessions key is reported iff `sessions` exists; the three pair keys iff `pair` exists |
| SchemaRepair.ReportMeansAdded | mbti-arcade/app/utils/sqlite_schema_repair.py:13-26 | each of the four reported flags is true iff its column was absent before, and every column is present afterwards |
| SchemaRepair.RepairScope | mbti-arcade/app/utils/sqlite_schema_repair.py:60-106 | no table is created or dropped; other tables are untouched; existing columns stay |
| SchemaRepair.RepairIdempotent | mbti-arcade/app/utils/sqlite_schema_repair.py:20-22 | repairing twice equals repairing once, and the second report is all false |
| SchemaRepair.RepairedHasColumns | mbti-arcade/app/utils/sqlite_schema_repair.py:75-103 | after the repair `sessions` has `owner_token_hash` and `pair` has its three columns |
| SchemaRepair.SessionsRepairFixed | mbti-arcade/app/utils/sqlite_schema_repair.py:75-81 | once `sessions` has its column, the step changes nothing and reports false |
| SchemaRepair.PairRepairFixed | mbti-arcade/app/utils/sqlite_schema_repair.py:83-103 | once `pair` has its three columns, the step changes nothing and reports false |
| SchemaRepair.AddColumnScope | mbti-arcade/app/utils/sqlite_schema_repair.py:20-25 | adding a column touches only its own table, and only by appending |
| SchemaRepair.Merge | mbti-arcade/app/utils/sqlite_schema_repair.py:117-118 | the merged keys are the union, each true iff true in either report |
| SchemaRepair.MergeAllSpec | mbti-arcade/app/utils/sqlite_schema_repair.py:114-118 | a key is in the combined report iff some file reported it, and is true iff some file reported it true |
| SchemaRepair.RepairPathsDistinct | mbti-arcade/app/utils/sqlite_schema_repair.py:115-116 | over distinct paths, each existing file ends repaired, others stay absent, and each report is that file's report |
| SchemaRepair.RepairPathsSnoc | mbti-arcade/app/utils/sqlite_schema_repair.py:115-116 | one more path repairs the earlier paths first, then that file if it exists |
| SchemaRepair.Disk.constructor | mbti-arcade/app/utils/sqlite_schema_repair.py:60-64 | the disk starts with the given database files |
| SchemaRepair.Disk.MaybeAddColumn | mbti-arcade/app/utils/sqlite_schema_repair.py:13-26 | returns true iff the column was missing, and the table afterwards has it |
| SchemaRepair.Disk.RepairFile | mbti-arcade/app/utils/sqlite_schema_repair.py:60-106 | a missing file gives `{}` and changes nothing; otherwise the file becomes its repaired schema and the report is returned |
| SchemaRepair.Disk.AddSessionsColumn | mbti-arcade/app/utils/sqlite_schema_repair.py:75-81 | adds `owner_token_hash` when `sessions` exists and reports it |
| SchemaRepair.Disk.AddPairColumns | mbti-arcade/app/utils/sqlite_schema_repair.py:83-103 | adds the three `pair` columns when `pair` exists and reports them |
| SchemaRepair.Disk.RepairForUrl | mbti-arcade/app/utils/sqlite_schema_repair.py:109-119 | no or an empty raw path gives `{}` and no change; otherwise every candidate file is repaired and the reports are OR-merged |
| SchemaRepair.Disk.RepairAll | mbti-arcade/app/utils/sqlite_schema_repair.py:114-118 | the loop leaves the files as repairing the paths in order does, and returns the OR-merge of their reports |
| SchemaRepair.MergeInto | mbti-arcade/app/utils/sqlite_schema_repair.py:117-118 | the key-by-key loop computes the OR-merge |
| Records.FindByInviteToken | mbti-arcade/app/routers/status.py:25-27 | the first session with the token, or none iff no session has it |
| Records.FindByOwnerHash | mbti-arcade/app/routers/owner.py:44-49 | the first session storing the hash, or none iff none does |
| Records.CountAll | mbti-arcade/app/main.py:1052-1056 | counts the session's participants: at most all of them, zero iff none belongs to it |
| Records.CountSubmitted | mbti-arcade/app/routers/status.py:38-46 | counts participants who submitted answers; at most all of them; zero iff none did |
| Records.LatestSubmission | mbti-arcade/app/routers/status.py:48-55 | a latest time is always some submitted participant's time |
| Records.LatestSubmissionIsMax | mbti-arcade/app/routers/status.py:48-55 | the latest time is the maximum over submitted participants, reached by one of them, and none iff nobody submitted |
| Records.PendingParticipantIgnored | mbti-arcade/app/routers/status.py:42 | a participant without answers changes neither the count nor the latest time |
| Records.OtherSessionIgnored | mbti-arcade/app/routers/status.py:41 | another session's participant changes nothing |
| InviteGate.ProblemOf | mbti-arcade/app/main.py:1042-1065 | a problem response exactly for an expired or full invite: 410 `invite-expired` for the first, 429 `invite-capacity` for the second |
| InviteGate.Gate | mbti-arcade/app/main.py:1033-1065 | there is no session iff the token is unknown; an open invite is that session |
| InviteGate.GateDecision | mbti-arcade/app/main.py:1037-1065 | expired iff expiry <= now; full iff not expired and participants >= max raters; open otherwise; the expired page names the inviter |
| InviteGate.ExpiryBeforeCapacity | mbti-arcade/app/main.py:1042-1058 | an expired invite answers 410 even when full |
| InviteGate.NaiveExpiryIsUtc | mbti-arcade/app/main.py:1040-1041 | a naive expiry is read as UTC |
| InviteGate.AwareExpiryShifts | mbti-arcade/app/main.py:1039-1042 | an aware expiry is compared in UTC, not by its wall-clock value |
| InviteGate.CapacityStaysReached | mbti-arcade/app/main.py:1052-1058 | adding participants never lowers the count, so a full invite stays full |
| InviteGate.SingleRaterCapacity | mbti-arcade/app/main.py:1058-1065 | with one rater allowed, one participant closes the invite |
| ResultReport.Round2 | mbti-arcade/app/main.py:824 | rounding to two decimals moves a value by at most 0.005 |
| ResultReport.Row | mbti-arcade/app/main.py:816-827 | label from the table or the stored relation; the count always; no top type or PGI while locked; once unlocked the top type, and the PGI exactly when present, within 0.005 of the stored value |
| ResultReport.RelationSummary | mbti-arcade/app/main.py:817-829 | one row per aggregate, in order |
| ResultReport.VisiblePgi | mbti-arcade/app/main.py:831-835 | the visible PGIs are empty iff no row shows one |
| ResultReport.LockedHidesAggregates | mbti-arcade/app/main.py:816-829 | below three respondents, every row hides its top type and PGI but keeps its count |
| ResultReport.UnlockedShowsAggregates | mbti-arcade/app/main.py:816-829 | from three respondents, rows show the top type and the PGI rounded to two decimals |
| ResultReport.RowLabels | mbti-arcade/app/main.py:819-821 | each of the nine relations of the label table shows its own Korean label; a relation without a label is shown as stored |
| ResultReport.LabelsDistinct | mbti-arcade/app/main.py:819-821 | two known relations never show the same label |
| ResultReport.SumAtLeast | mbti-arcade/app/main.py:837 | a sum of values at least `lo` is at least `n*lo` |
| ResultReport.SumBelow | mbti-arcade/app/main.py:837 | a sum of values below `hi` is below `n*hi` |
| ResultReport.AverageAtLeast | mbti-arcade/app/main.py:837 | the average is at least any lower bound of the values |
| ResultReport.AverageBelow | mbti-arcade/app/main.py:837 | the average is below any strict upper bound of the values |
| ResultReport.VisiblePgiBounded | mbti-arcade/app/main.py:831-835 | bounds on the rows' PGIs carry over to the visible list |
| ResultReport.BurnoutLevels | mbti-arcade/app/main.py:836-843 | all PGIs >= 60 give the high message, all in [40, 60) the medium one, all below 40 the low one |
| ResultReport.BurnoutMixedBands | mbti-arcade/app/main.py:836-843 | shown PGIs of 30 and 90 give the high message: the bands apply to the average, not to each value |
| ResultReport.BurnoutSignal | mbti-arcade/app/main.py:830-843 | no signal iff no row shows a PGI; otherwise high iff the average shown PGI is >= 60, medium iff it is in [40, 60), low iff it is below 40 |
| ResultReport.BurnoutNeedsVisiblePgi | mbti-arcade/app/main.py:831-843 | there is a signal iff some PGI is visible, so a locked report has none |
| ResultReport.MakeReportMeta | mbti-arcade/app/main.py:845-852 | the owner name is never empty; the count is the total respondents; unlocked iff at least three; the owner MBTI is the form's, else the session's |
| ResultReport.ReportMetaOwnerName | mbti-arcade/app/main.py:846-848 | the owner name falls back from the snapshot name to the friend name to "공유자" |
| InviteStatus.GetInviteStatus | mbti-arcade/app/routers/status.py:19-70 | an unknown token answers 404 `invite-not-found`; a success carries `Cache-Control: no-store` and `Pragma: no-cache` |
| InviteStatus.StatusBody | mbti-arcade/app/routers/status.py:36-70 | an inactive session gives its problem; otherwise the body has the submitted count, threshold 3, unlocked iff count >= 3, the session's expiry and limit, and as update time the maximum submission time, reached by a submitted participant (none iff the count is zero) |
| InviteStatus.UnlocksAtThree | mbti-arcade/app/routers/status.py:57-58 | zero or one submission stays locked; three unlock |
| Owner.OwnerPageHeaders | mbti-arcade/app/routers/owner.py:28-31 | sets `no-store` and `no-referrer` and keeps every other header |
| Owner.GetOwnerSession | mbti-arcade/app/routers/owner.py:34-59 | a missing or empty cookie answers 401; otherwise the session storing the cookie's hash is returned when it is active, its own problem when it is not, and 401 when no session stores the hash |
| Owner.UnknownCookieUnauthorized | mbti-arcade/app/routers/owner.py:44-56 | a cookie whose hash no session stores answers 401 `unauthorized` |
| Owner.OneTokenPerSession | mbti-arcade/app/routers/owner.py:44-49 | with an injective hash, two cookies that authenticate the same session carry the same token |
| Owner.OwnerExchange | mbti-arcade/app/routers/owner.py:62-94 | an unknown token answers 404 `owner-link-not-found`; a known token of an inactive session answers that session's problem, of an active one succeeds; a success is a 303 to `/me` with the `owner_token` cookie (httponly, lax, secure iff https, path /) and the owner headers |
| Owner.ExchangeThenAuthenticate | mbti-arcade/app/routers/owner.py:62-94 | the cookie set by the exchange authenticates the same session |
| Owner.OwnerTokenAccepted | mbti-arcade/app/routers/owner.py:34-94 | with unique owner hashes, the owner token of an active session is exchanged successfully and its cookie opens exactly that session |
| Owner.ProgressPercent | mbti-arcade/app/routers/owner.py:116-118 | the percentage lies in 0..100 and is 100 iff the count reaches the threshold |
| Owner.ProgressPercentSteps | mbti-arcade/app/routers/owner.py:116-118 | the percentage is monotone and reads 0, 33, 66, 100 for 0..3 respondents |
| Owner.OwnerProgress | mbti-arcade/app/routers/owner.py:97-138 | authentication errors pass through; otherwise the page has the invite URL and token, the status URL, the submitted count, threshold 3, unlocked iff >= 3, the percentage `ProgressPercent(count)`, the snapshot owner name or "", and the owner headers |
| Owner.RowsOf | mbti-arcade/app/routers/owner.py:160-162 | exactly the aggregates of the session |
| Owner.SessionRelations | mbti-arcade/app/routers/owner.py:160-165 | the session's aggregates, reordered by ascending relation |
| Owner.OwnerReport | mbti-arcade/app/routers/owner.py:141-180 | authentication errors pass through; otherwise the submitted count, threshold 3, unlocked iff >= 3, a permutation of the session's aggregate rows sorted by relation, the snapshot owner name or "", and the owner headers |
| Sorting.SortBy | mbti-arcade/app/data/questions.py:57 | the result is ordered and a permutation of the input |
| Sorting.InsertSorted | mbti-arcade/app/data/questions.py:57 | inserting keeps the order and adds exactly the element |
| Sorting.InsertBeforeEquals | mbti-arcade/app/data/questions.py:57 | an inserted element goes before every element ranked equal to it |
| Sorting.SortByStable | mbti-arcade/app/data/questions.py:57 | the sort is stable: elements ranked equal keep their input order |
| Sorting.SortByKeepsUnique | mbti-arcade/app/data/questions.py:57 | sorting keeps keys unique |
| Sorting.StringLeqIsTotalPreorder | mbti-arcade/app/routers/owner.py:163 | string order is a total preorder |
| Text.Strip | mbti-arcade/app/main.py:31 | the result has no leading or trailing whitespace |
| Text.StripRemovesOuterSpace | mbti-arcade/app/main.py:31 | the result is the text between a whitespace-only prefix and a whitespace-only suffix |
| Text.Lower | mbti-arcade/app/data/questions.py:50 | lower-casing works character by character and keeps the length |
| Text.Partition | mbti-arcade/app/main.py:41 | `partition`: the head has no separator; head, separator and tail rebuild the input |
| Text.FirstField | mbti-arcade/app/main.py:31 | `split(sep)[0]` is the longest separator-free prefix |
| Text.ParseIntShowNat | mbti-arcade/app/main.py:43 | `int()` reads back every decimal numeral |
| Text.ParseInt | mbti-arcade/app/main.py:42-45 | blank text fails; an accepted text is an optional sign followed by digits; a negative value needs a leading `-` |

## Left out

- `compute_norms` and `norm_to_radar` are not part of this model. `Scoring.ScoreAnswers` takes their axis norms as an input and does not return the radar.
- Floating point is modelled as exact `real`. `ResultReport.Round2` states only the 0.005 bound of `round(x, 2)`, not the binary float rounding.
- Text.Strip: only the ten ASCII whitespace characters are stripped: space, `\t`, `\n`, `\r`, `\x0b`, `\x0c` and `\x1c` to `\x1f`. Unicode spaces such as U+0085, U+00A0 and U+3000, which Python's `str.strip()` also removes, are kept.
- Text.Lower: only ASCII capitals are folded. Python's `str.lower()` also folds non-ASCII capitals such as 'Ä' and 'Σ', and some of them, such as 'İ', become two characters.
- SchemaRepair.Unquote: only `%XX` escapes below 0x80 are decoded. Multi-byte UTF-8 escapes stay as text.
- SchemaRepair.Quote: only ASCII characters are encoded. `urllib.parse.quote` also encodes non-ASCII characters as their UTF-8 bytes.
- `Path.resolve`, path normalisation and `Path.exists` are left out. Resolution is a function parameter. A file exists when its path is a key of `Disk.databases`.
- SQLite connections, `PRAGMA` queries, `ALTER TABLE` execution and commits are left out. A database is its map from table names to column lists.
- The `scripts/repair_sqlite_schema.py` copy of the repair logic is not modelled.
- Owner.OwnerPageHeaders: `apply_noindex_headers` is not part of this model. Its headers arrive as the `base` parameter.
- `build_invite_url`, `ensure_session_active` and `sha256_hex` are not part of this model. They are function parameters.
- Records.FindByInviteToken: invite tokens are assumed unique, as the database's unique column makes them. `one_or_none` raising on duplicates is not modelled.
- InviteGate.Gate: the page rendered after the gate is left out, and so is the fallback page for an unknown token. Both are reduced to `Open` and `NoSession`.
- Owner.SessionRelations: rows with equal relations keep their input order; SQL leaves that order unspecified. The order is by string, as SQLite stores the enum. A native PostgreSQL enum would sort in declaration order.
- InviteStatus.GetInviteStatus: `UNLOCK_THRESHOLD` is imported from a module that is not part of this model. Its value is taken to be 3, the threshold the owner pages use.
- JsEscape.EscapeJs: `str(value)` of a non-string value is left out. The input is an optional string.
- Text.ParseInt: Python's `int()` also accepts `_` between digits and non-ASCII digits. The model accepts only surrounding whitespace, a sign and ASCII digits.
- Template rendering, database writes, the rate limiter, the request-id middleware and the remaining routes of `main.py` are left out. They are not part of this core.
- Questions.QuestionsForMode: the question seeds come from `questionnaire_loader`, which is not part of this model. They are a parameter.

=== FILE: Collections.dfy ===
/** Sets of the elements of a sequence, and what their size says about duplicates. */
module Collections {

  /** The elements of `s`, as a Python set comprehension over it collects them. */
  function ToSet<T(!new)>(s: seq<T>): (r: set<T>)
    ensures forall x :: x in r <==> x in s
  {
    if s == [] then {} else {s[0]} + ToSet(s[1..])
  }

  /** No element occurs twice. */
  predicate Distinct<T(==)>(s: seq<T>) {
    forall i, j :: 0 <= i < j < |s| ==> s[i] != s[j]
  }

  lemma {:induction false} CardBound<T(!new)>(s: seq<T>)
    ensures |ToSet(s)| <= |s|
  {
    if s != [] {
      CardBound(s[1..]);
    }
  }

  /** A duplicate-free sequence has as many distinct elements as positions. */
  lemma {:induction false} DistinctCard<T(!new)>(s: seq<T>)
    requires Distinct(s)
    ensures |ToSet(s)| == |s|
  {
    if s != [] {
      assert Distinct(s[1..]);
      DistinctCard(s[1..]);
      assert s[0] !in s[1..];
    }
  }

  /** Conversely, as many distinct elements as positions means no duplicate. */
  lemma {:induction false} FullMeansDistinct<T(!new)>(s: seq<T>)
    requires |ToSet(s)| == |s|
    ensures Distinct(s)
  {
    if s != [] {
      var t := s[1..];
      CardBound(t);
      if s[0] in ToSet(t) {
        assert false;
      }
      FullMeansDistinct(t);
      forall i, j | 0 <= i < j < |s| ensures s[i] != s[j] {
        if i == 0 {
          assert s[j] == t[j - 1];
        } else {
          assert s[i] == t[i - 1] && s[j] == t[j - 1];
        }
      }
    }
  }
}

=== FILE: Http.dfy ===
/**
 * The HTTP-facing values the modelled handlers produce: RFC 9457 problem
 * responses (status code plus the `type` suffix), and response headers.
 */
module Http {

  /** A problem-details response: status code and the suffix of its `type` URI. */
  datatype Problem = Problem(status: int, typeSuffix: string)

  type Headers = map<string, string>

  /** The response carries header `name` with exactly `value`. */
  predicate HasHeader(h: Headers, name: string, value: string) {
    name in h && h[name] == value
  }

  const NotFound := 404
  const Unauthorized := 401
  const BadRequest := 400
  const Gone := 410
  const TooManyRequests := 429
  const SeeOther := 303
}

=== FILE: InviteGate.dfy ===
/**
 * The gate in front of the public invite page (`invite_public`): an expired
 * invite is refused first, then a full one; otherwise the rater form is
 * shown. `now` is the request's UTC instant.
 */
module InviteGate {
  import opened Wrappers
  import opened Http
  import opened Records

  const DefaultInviter := "초대한 분"

  datatype GateOutcome =
    | NoSession                  // the token names no session: the quiz router renders its own page
    | Expired(ownerName: string) // 410, the detail names the inviter
    | AtCapacity                 // 429
    | Open(session: SessionRecord)

  /** The problem response of a refused invite. */
  function ProblemOf(o: GateOutcome): (r: Option<Problem>)
    ensures r.Some? <==> o.Expired? || o.AtCapacity?
    ensures o.Expired? ==> r == Some(Problem(Gone, "invite-expired"))
    ensures o.AtCapacity? ==> r == Some(Problem(TooManyRequests, "invite-capacity"))
  {
    match o
    case Expired(_) => Some(Problem(Gone, "invite-expired"))
    case AtCapacity => Some(Problem(TooManyRequests, "invite-capacity"))
    case _ => None
  }

  /** `snapshot_owner_name or "초대한 분"`: an empty name falls back too. */
  function InviterName(s: SessionRecord): string {
    if s.snapshotOwnerName.Some? && s.snapshotOwnerName.value != "" then s.snapshotOwnerName.value else DefaultInviter
  }

  function Gate(sessions: seq<SessionRecord>, participants: seq<Participant>, token: string, now: int): (r: GateOutcome)
    ensures FindByInviteToken(sessions, token).None? <==> r.NoSession?
    ensures r.Open? ==> r.session == FindByInviteToken(sessions, token).value
  {
    var found := FindByInviteToken(sessions, token);
    if found.None? then NoSession
    else
      var s := found.value;
      if AsUtc(s.expiresAt) <= now then Expired(InviterName(s))
      else if CountAll(s.id, participants) >= s.maxRaters then AtCapacity
      else Open(s)
  }

  /**
   * The decision for a found session: expired iff the expiry instant is not
   * after `now`; at capacity iff not expired and the session already has
   * `max_raters` participants, submitted or not; open otherwise.
   */
  lemma GateDecision(sessions: seq<SessionRecord>, participants: seq<Participant>, token: string, now: int)
    requires FindByInviteToken(sessions, token).Some?
    ensures var s := FindByInviteToken(sessions, token).value;
      var r := Gate(sessions, participants, token, now);
      && (r.Expired? <==> AsUtc(s.expiresAt) <= now)
      && (r.AtCapacity? <==> now < AsUtc(s.expiresAt) && s.maxRaters <= CountAll(s.id, participants))
      && (r.Open? <==> now < AsUtc(s.expiresAt) && CountAll(s.id, participants) < s.maxRaters)
      && (r.Expired? ==> r.ownerName == InviterName(s))
  {
  }

  /** Expiry is checked first: an expired and full invite answers 410, not 429. */
  lemma ExpiryBeforeCapacity(sessions: seq<SessionRecord>, participants: seq<Participant>, token: string, now: int)
    requires FindByInviteToken(sessions, token).Some?
    requires AsUtc(FindByInviteToken(sessions, token).value.expiresAt) <= now
    ensures ProblemOf(Gate(sessions, participants, token, now)) == Some(Problem(410, "invite-expired"))
  {
  }

  /** A naive expiry is the same instant as that wall time at offset zero. */
  lemma NaiveExpiryIsUtc(seconds: int)
    ensures AsUtc(DateTime(seconds, None)) == AsUtc(DateTime(seconds, Some(0)))
  {
  }

  /** An aware expiry at a positive offset is earlier than the same wall time read as UTC. */
  lemma AwareExpiryShifts(seconds: int, offset: int, now: int)
    requires offset > 0 && now == seconds - offset
    ensures AsUtc(DateTime(seconds, Some(offset))) <= now < AsUtc(DateTime(seconds, None))
  {
  }

  /** Once full, a session stays full as participants are added. */
  lemma {:induction false} CapacityStaysReached(sessionId: string, ps: seq<Participant>, more: seq<Participant>)
    ensures CountAll(sessionId, ps) <= CountAll(sessionId, ps + more)
    decreases |more|
  {
    if more != [] {
      var n := |more| - 1;
      CapacityStaysReached(sessionId, ps, more[..n]);
      var all := ps + more;
      assert all[..|all| - 1] == ps + more[..n];
      assert CountAll(sessionId, all) >= CountAll(sessionId, all[..|all| - 1]);
    } else {
      assert ps + more == ps;
    }
  }

  /** The test scenario: one participant and `max_raters` 1, not yet expired, is refused with 429. */
  lemma SingleRaterCapacity(s: SessionRecord, p: Participant, now: int)
    requires s.maxRaters == 1 && p.sessionId == s.id && now < AsUtc(s.expiresAt)
    ensures Gate([s], [p], s.inviteToken, now) == AtCapacity
  {
    assert [p][..0] == [];
  }
}

=== FILE: InviteStatus.dfy ===
/**
 * `GET /v1/invites/{invite_token}/status`: how many raters have answered an
 * invite, whether the report is unlocked, and when the last answer came in.
 */
module InviteStatus {
  import opened Wrappers
  import opened Http
  import opened Records

  /** `UNLOCK_THRESHOLD` of the participants router. */
  const UnlockThreshold: nat := 3

  datatype InviteStatusResponse = InviteStatusResponse(
    respondentCount: nat,
    threshold: nat,
    unlocked: bool,
    expiresAt: DateTime,
    maxRaters: int,
    updatedAt: Option<int>)

  datatype StatusReply = StatusReply(body: InviteStatusResponse, headers: Headers)

  const NoStoreHeaders: Headers := map["Cache-Control" := "no-store", "Pragma" := "no-cache"]

  /**
   * `get_invite_status`. `ensureActive` stands for `ensure_session_active`:
   * the problem it raises for a session that may no longer be used, if any.
   */
  function GetInviteStatus(
    token: string, sessions: seq<SessionRecord>, participants: seq<Participant>,
    ensureActive: SessionRecord -> Option<Problem>): (r: Result<StatusReply, Problem>)
    ensures FindByInviteToken(sessions, token).None? ==> r == Err(Problem(NotFound, "invite-not-found"))
    ensures r.Ok? ==> HasHeader(r.value.headers, "Cache-Control", "no-store") && HasHeader(r.value.headers, "Pragma", "no-cache")
  {
    var found := FindByInviteToken(sessions, token);
    if found.None? then Err(Problem(NotFound, "invite-not-found"))
    else
      var session := found.value;
      var inactive := ensureActive(session);
      if inactive.Some? then Err(inactive.value)
      else
        var count := CountSubmitted(session.id, participants);
        Ok(StatusReply(
          InviteStatusResponse(
            count, UnlockThreshold, count >= UnlockThreshold,
            session.expiresAt, session.maxRaters, LatestSubmission(session.id, participants)),
          NoStoreHeaders))
  }

  /**
   * For a known, active invite: the count is of this session's submitted
   * participants, the report unlocks at three, the expiry and rater limit are
   * the session's own, and the update time is the latest submission, absent
   * exactly when nobody has submitted.
   */
  lemma StatusBody(token: string, sessions: seq<SessionRecord>, participants: seq<Participant>,
                   ensureActive: SessionRecord -> Option<Problem>)
    requires FindByInviteToken(sessions, token).Some?
    ensures var s := FindByInviteToken(sessions, token).value;
      var r := GetInviteStatus(token, sessions, participants, ensureActive);
      && (ensureActive(s).Some? ==> r == Err(ensureActive(s).value))
      && (ensureActive(s).None? ==>
            r.Ok?
            && r.value.body.respondentCount == CountSubmitted(s.id, participants)
            && r.value.body.threshold == 3
            && (r.value.body.unlocked <==> CountSubmitted(s.id, participants) >= 3)
            && r.value.body.expiresAt == s.expiresAt
            && r.value.body.maxRaters == s.maxRaters
            && (r.value.body.updatedAt.None? <==> r.value.body.respondentCount == 0)
            && (r.value.body.updatedAt.Some? ==>
                  exists p :: p in participants && Submitted(s.id, p) && p.answersSubmittedAt == r.value.body.updatedAt)
            && (forall p :: p in participants && Submitted(s.id, p) ==>
                  p.answersSubmittedAt.value <= r.value.body.updatedAt.value))
  {
    LatestSubmissionIsMax(FindByInviteToken(sessions, token).value.id, participants);
  }

  /** The scenario of the status tests: locked with no answer and with one, unlocked with three. */
  lemma UnlocksAtThree(s: SessionRecord, a: Participant, b: Participant, c: Participant,
                       ensureActive: SessionRecord -> Option<Problem>)
    requires ensureActive(s).None?
    requires a.sessionId == s.id && b.sessionId == s.id && c.sessionId == s.id
    requires a.answersSubmittedAt.Some? && b.answersSubmittedAt.Some? && c.answersSubmittedAt.Some?
    ensures !GetInviteStatus(s.inviteToken, [s], [], ensureActive).value.body.unlocked
    ensures GetInviteStatus(s.inviteToken, [s], [], ensureActive).value.body.updatedAt.None?
    ensures !GetInviteStatus(s.inviteToken, [s], [a], ensureActive).value.body.unlocked
    ensures GetInviteStatus(s.inviteToken, [s], [a, b, c], ensureActive).value.body.unlocked
  {
    assert [a][..0] == [];
    assert [a, b, c][..2] == [a, b];
    assert [a, b][..1] == [a];
    assert CountSubmitted(s.id, [a]) == 1;
    assert CountSubmitted(s.id, [a, b]) == 2;
    assert CountSubmitted(s.id, [a, b, c]) == 3;
  }
}

=== FILE: JsEscape.dfy ===
/**
 * The `escapejs` template filter (`_escape_js` in app/main.py): a fixed,
 * ordered list of substring replacements applied one after another, the
 * backslash first so that the backslashes the later steps insert are not
 * doubled again.
 */
module JsEscape {
  import opened Wrappers
  import opened Text

  /** `s.replace(search, replacement)`: non-overlapping occurrences, left to right. */
  function ReplaceAll(s: string, search: string, replacement: string): string
    requires search != []
    decreases |s|
  {
    if s == [] then []
    else if StartsWith(s, search) then replacement + ReplaceAll(s[|search|..], search, replacement)
    else [s[0]] + ReplaceAll(s[1..], search, replacement)
  }

  /** The replacement table, in the order the filter applies it. */
  const Replacements: seq<(string, string)> := [
    ("\\", "\\\\"),
    ("\n", "\\n"),
    ("\r", "\\r"),
    ("\t", "\\t"),
    ("'", "\\'"),
    ("\"", "\\\""),
    ("</", "<\\/"),
    ("\U{2028}", "\\u2028"),
    ("\U{2029}", "\\u2029")
  ]

  /** The text after the replacements of `table`, applied first to last. */
  function ApplyAll(table: seq<(string, string)>, s: string): string
    requires forall i :: 0 <= i < |table| ==> table[i].0 != []
  {
    if table == [] then s
    else ApplyAll(table[1..], ReplaceAll(s, table[0].0, table[0].1))
  }

  /** `_escape_js(value)`: `None` gives the empty string, a string gets every replacement in order. */
  method EscapeJs(value: Option<string>) returns (r: string)
    ensures value == None ==> r == ""
    ensures value.Some? ==> r == ApplyAll(Replacements, value.value)
  {
    if value == None {
      return "";
    }
    var text := value.value;
    var i := 0;
    while i < |Replacements|
      invariant 0 <= i <= |Replacements|
      invariant ApplyAll(Replacements[i..], text) == ApplyAll(Replacements, value.value)
    {
      var (search, replacement) := Replacements[i];
      assert Replacements[i..][1..] == Replacements[i + 1..];
      text := ReplaceAll(text, search, replacement);
      i := i + 1;
    }
    r := text;
  }

  /** Text in which the searched string does not occur comes back unchanged. */
  lemma {:induction false} ReplaceAbsent(s: string, search: string, replacement: string)
    requires search != [] && !Contains(s, search)
    ensures ReplaceAll(s, search, replacement) == s
    decreases |s|
  {
    if s != [] {
      ReplaceAbsent(s[1..], search, replacement);
    }
  }

  /** A character found neither in the text nor in the replacement is not in the result. */
  lemma {:induction false} ReplaceKeepsCharOut(s: string, search: string, replacement: string, c: char)
    requires search != [] && c !in s && c !in replacement
    ensures c !in ReplaceAll(s, search, replacement)
    decreases |s|
  {
    if s != [] {
      if StartsWith(s, search) {
        ReplaceKeepsCharOut(s[|search|..], search, replacement, c);
      } else {
        ReplaceKeepsCharOut(s[1..], search, replacement, c);
      }
    }
  }

  /** Replacing a character by a string without it removes every occurrence of it. */
  lemma {:induction false} ReplaceRemovesChar(s: string, c: char, replacement: string)
    requires c !in replacement
    ensures c !in ReplaceAll(s, [c], replacement)
    decreases |s|
  {
    if s != [] {
      ReplaceRemovesChar(s[1..], c, replacement);
    }
  }

  /** The result starts with the text's first character, or with the replacement when a match starts there. */
  lemma ReplaceFirstChar(s: string, search: string, replacement: string)
    requires search != [] && s != []
    ensures var r := ReplaceAll(s, search, replacement);
      if StartsWith(s, search) then r == replacement + ReplaceAll(s[|search|..], search, replacement)
      else r != [] && r[0] == s[0]
  {
  }

  /** A two-character string is absent from `a + b` when it is absent from both and not formed across the seam. */
  lemma {:induction false} NoPairInConcat(a: string, b: string, x: char, y: char)
    requires !Contains(a, [x, y]) && !Contains(b, [x, y])
    requires !(a != [] && b != [] && a[|a| - 1] == x && b[0] == y)
    ensures !Contains(a + b, [x, y])
    decreases |a|
  {
    if a == [] {
      assert a + b == b;
    } else {
      assert (a + b)[1..] == a[1..] + b;
      if |a| >= 2 {
        assert (a + b)[..2] == a[..2];
      } else if b != [] {
        assert (a + b)[..2] == [a[0], b[0]];
      }
      assert !StartsWith(a + b, [x, y]);
      if a[1..] != [] {
        assert a[1..][|a[1..]| - 1] == a[|a| - 1];
      }
      NoPairInConcat(a[1..], b, x, y);
      assert !Contains(a[1..] + b, [x, y]);
    }
  }

  /** A string without the character `x` holds no two-character string starting with `x`. */
  lemma {:induction false} NoPairWithoutChar(s: string, x: char, y: char)
    requires x !in s
    ensures !Contains(s, [x, y])
    decreases |s|
  {
    if s != [] {
      if |s| >= 2 {
        assert s[..2][0] == s[0];
      }
      NoPairWithoutChar(s[1..], x, y);
    }
  }

  /** After the `</` step no `</` is left: the inserted `<\/` cannot start or end one. */
  lemma {:induction false} NoCloseTagAfterReplace(s: string)
    ensures !Contains(ReplaceAll(s, "</", "<\\/"), "</")
    decreases |s|
  {
    if s != [] {
      if StartsWith(s, "</") {
        var rest := ReplaceAll(s[2..], "</", "<\\/");
        NoCloseTagAfterReplace(s[2..]);
        NoPairWithoutChar("\\/", '<', '/');
        NoPairInConcat("\\/", rest, '<', '/');
        var r := ReplaceAll(s, "</", "<\\/");
        assert r == "<\\/" + rest;
        assert r[1] == '\\';
        assert r[1..] == "\\/" + rest;
      } else {
        var rest := ReplaceAll(s[1..], "</", "<\\/");
        NoCloseTagAfterReplace(s[1..]);
        NoPairWithoutChar([], '<', '/');
        if s[0] == '<' && rest != [] {
          ReplaceFirstChar(s[1..], "</", "<\\/");
          if !StartsWith(s[1..], "</") {
            assert s[..2] == [s[0], s[1]];
          }
        }
        assert [s[0]][1..] == [];
        NoPairInConcat([s[0]], rest, '<', '/');
      }
    }
  }

  /**
   * Replacing a character other than `<` and `/` by a string that has no
   * `</`, does not start with `/` and does not end with `<` cannot create a `</`.
   */
  lemma {:induction false} CharReplaceKeepsNoCloseTag(s: string, c: char, replacement: string)
    requires c != '<' && c != '/'
    requires replacement != [] && replacement[0] != '/' && replacement[|replacement| - 1] != '<'
    requires !Contains(replacement, "</") && !Contains(s, "</")
    ensures !Contains(ReplaceAll(s, [c], replacement), "</")
    decreases |s|
  {
    if s != [] {
      var rest := ReplaceAll(s[1..], [c], replacement);
      CharReplaceKeepsNoCloseTag(s[1..], c, replacement);
      if StartsWith(s, [c]) {
        NoPairInConcat(replacement, rest, '<', '/');
      } else {
        if s[0] == '<' && rest != [] {
          ReplaceFirstChar(s[1..], [c], replacement);
          if !StartsWith(s[1..], [c]) {
            assert s[..2] == [s[0], s[1]];
          }
        }
        assert [s[0]][1..] == [];
        NoPairInConcat([s[0]], rest, '<', '/');
      }
    }
  }

  /** Applying a table is applying its first `k` entries and then the rest. */
  lemma {:induction false} ApplyAllSplit(table: seq<(string, string)>, s: string, k: nat)
    requires k <= |table| && forall i :: 0 <= i < |table| ==> table[i].0 != []
    ensures ApplyAll(table, s) == ApplyAll(table[k..], ApplyAll(table[..k], s))
    decreases k
  {
    if k > 0 {
      var t := table[1..];
      ApplyAllSplit(t, ReplaceAll(s, table[0].0, table[0].1), k - 1);
      assert t[k - 1..] == table[k..];
      assert table[..k][1..] == t[..k - 1];
    }
  }

  /** A character absent from the text and from every replacement stays absent. */
  lemma {:induction false} ApplyAllKeepsCharOut(table: seq<(string, string)>, s: string, c: char)
    requires forall i :: 0 <= i < |table| ==> table[i].0 != [] && c !in table[i].1
    requires c !in s
    ensures c !in ApplyAll(table, s)
    decreases |table|
  {
    if table != [] {
      ReplaceKeepsCharOut(s, table[0].0, table[0].1, c);
      ApplyAllKeepsCharOut(table[1..], ReplaceAll(s, table[0].0, table[0].1), c);
    }
  }

  /** A character that entry `k` replaces and no later entry reintroduces is absent from the escaped text. */
  lemma EscapedLacks(s: string, k: nat, c: char)
    requires k < |Replacements| && Replacements[k].0 == [c]
    requires forall i :: k <= i < |Replacements| ==> c !in Replacements[i].1
    ensures c !in ApplyAll(Replacements, s)
  {
    var before := ApplyAll(Replacements[..k], s);
    ApplyAllSplit(Replacements, s, k);
    ApplyFrom(k, before);
    var after := ReplaceAll(before, [c], Replacements[k].1);
    ReplaceRemovesChar(before, c, Replacements[k].1);
    ApplyAllKeepsCharOut(Replacements[k + 1..], after, c);
  }

  /** No `</` survives: the `</` step removes them and the two later steps cannot form one. */
  lemma EscapedHasNoCloseTag(s: string)
    ensures !Contains(ApplyAll(Replacements, s), "</")
  {
    var s6 := ApplyAll(Replacements[..6], s);
    ApplyAllSplit(Replacements, s, 6);
    var s7 := ReplaceAll(s6, "</", "<\\/");
    var s8 := ReplaceAll(s7, "\U{2028}", "\\u2028");
    var s9 := ReplaceAll(s8, "\U{2029}", "\\u2029");
    assert Replacements[6] == ("</", "<\\/");
    ApplyFrom(6, s6);
    assert Replacements[7] == ("\U{2028}", "\\u2028");
    ApplyFrom(7, s7);
    assert Replacements[8] == ("\U{2029}", "\\u2029");
    ApplyFrom(8, s8);
    assert Replacements[9..] == [];
    assert ApplyAll(Replacements, s) == s9;
    NoCloseTagAfterReplace(s6);
    NoPairWithoutChar("\\u2028", '<', '/');
    NoPairWithoutChar("\\u2029", '<', '/');
    CharReplaceKeepsNoCloseTag(s7, '\U{2028}', "\\u2028");
    CharReplaceKeepsNoCloseTag(s8, '\U{2029}', "\\u2029");
  }

  /**
   * The escaped text contains no raw newline, carriage return, tab, U+2028
   * or U+2029, and no `</`.
   */
  lemma EscapedIsSafe(s: string)
    ensures var r := ApplyAll(Replacements, s);
      '\n' !in r && '\r' !in r && '\t' !in r && '\U{2028}' !in r && '\U{2029}' !in r && !Contains(r, "</")
  {
    EscapedHasNoControl(s);
    EscapedHasNoSeparator(s);
    EscapedHasNoCloseTag(s);
  }

  /** Newline, carriage return and tab are each replaced and never reintroduced. */
  lemma EscapedHasNoControl(s: string)
    ensures var r := ApplyAll(Replacements, s);
      '\n' !in r && '\r' !in r && '\t' !in r
  {
    EscapedLacks(s, 1, '\n');
    EscapedLacks(s, 2, '\r');
    EscapedLacks(s, 3, '\t');
  }

  /** The line and paragraph separators are replaced last. */
  lemma EscapedHasNoSeparator(s: string)
    ensures var r := ApplyAll(Replacements, s);
      '\U{2028}' !in r && '\U{2029}' !in r
  {
    EscapedLacks(s, 7, '\U{2028}');
    EscapedLacks(s, 8, '\U{2029}');
  }

  /** Applying the table from entry `k` on is entry `k`'s replacement followed by the rest. */
  lemma ApplyFrom(k: nat, s: string)
    requires k < |Replacements|
    ensures ApplyAll(Replacements[k..], s)
      == ApplyAll(Replacements[k + 1..], ReplaceAll(s, Replacements[k].0, Replacements[k].1))
  {
    assert Replacements[k..][1..] == Replacements[k + 1..];
  }

  /** The table applied step by step. */
  lemma ApplyAllUnfolds(s: string)
    ensures ApplyAll(Replacements, s)
      == ReplaceAll(ReplaceAll(ReplaceAll(ReplaceAll(ReplaceAll(ReplaceAll(ReplaceAll(ReplaceAll(ReplaceAll(
           s, "\\", "\\\\"), "\n", "\\n"), "\r", "\\r"), "\t", "\\t"), "'", "\\'"), "\"", "\\\""),
           "</", "<\\/"), "\U{2028}", "\\u2028"), "\U{2029}", "\\u2029")
  {
    assert Replacements[0..] == Replacements;
    var s1 := ReplaceAll(s, "\\", "\\\\");
    ApplyFrom(0, s);
    var s2 := ReplaceAll(s1, "\n", "\\n");
    ApplyFrom(1, s1);
    var s3 := ReplaceAll(s2, "\r", "\\r");
    ApplyFrom(2, s2);
    var s4 := ReplaceAll(s3, "\t", "\\t");
    ApplyFrom(3, s3);
    var s5 := ReplaceAll(s4, "'", "\\'");
    ApplyFrom(4, s4);
    var s6 := ReplaceAll(s5, "\"", "\\\"");
    ApplyFrom(5, s5);
    var s7 := ReplaceAll(s6, "</", "<\\/");
    ApplyFrom(6, s6);
    var s8 := ReplaceAll(s7, "\U{2028}", "\\u2028");
    ApplyFrom(7, s7);
    ApplyFrom(8, s8);
    assert Replacements[9..] == [];
  }

  /** Text holding none of the searched strings is returned unchanged. */
  lemma NothingToEscape(s: string)
    requires '\\' !in s && '\n' !in s && '\r' !in s && '\t' !in s && '\'' !in s && '"' !in s
    requires '\U{2028}' !in s && '\U{2029}' !in s && !Contains(s, "</")
    ensures ApplyAll(Replacements, s) == s
  {
    ApplyAllUnfolds(s);
    ContainsChar(s, '\\');
    ReplaceAbsent(s, "\\", "\\\\");
    ContainsChar(s, '\n');
    ReplaceAbsent(s, "\n", "\\n");
    ContainsChar(s, '\r');
    ReplaceAbsent(s, "\r", "\\r");
    ContainsChar(s, '\t');
    ReplaceAbsent(s, "\t", "\\t");
    ContainsChar(s, '\'');
    ReplaceAbsent(s, "'", "\\'");
    ContainsChar(s, '"');
    ReplaceAbsent(s, "\"", "\\\"");
    ReplaceAbsent(s, "</", "<\\/");
    ContainsChar(s, '\U{2028}');
    ReplaceAbsent(s, "\U{2028}", "\\u2028");
    ContainsChar(s, '\U{2029}');
    ReplaceAbsent(s, "\U{2029}", "\\u2029");
  }
}

=== FILE: Owner.dfy ===
/**
 * The owner's pages (app/routers/owner.py): exchanging the private owner
 * link for a cookie, authenticating that cookie by its SHA-256 hash, and the
 * progress and report pages behind it. `sha256` is a parameter; where a
 * property needs it to be collision-free, that is a precondition.
 */
module Owner {
  import opened Wrappers
  import opened Http
  import opened Records
  import opened Sorting

  const OwnerTokenCookie := "owner_token"
  const Threshold: nat := 3

  /** `_apply_owner_page_headers`, after the no-index headers `base` already set. */
  function OwnerPageHeaders(base: Headers): (r: Headers)
    ensures HasHeader(r, "Cache-Control", "no-store") && HasHeader(r, "Referrer-Policy", "no-referrer")
    ensures forall k :: k in base && k != "Cache-Control" && k != "Referrer-Policy" ==> HasHeader(r, k, base[k])
  {
    base["Cache-Control" := "no-store"]["Referrer-Policy" := "no-referrer"]
  }

  ghost predicate Injective(sha256: string -> string) {
    forall a, b :: sha256(a) == sha256(b) ==> a == b
  }

  /** `_get_owner_session`: the active session whose stored hash is the cookie's hash. */
  function GetOwnerSession(
    cookies: map<string, string>, sessions: seq<SessionRecord>,
    sha256: string -> string, ensureActive: SessionRecord -> Option<Problem>): (r: Result<SessionRecord, Problem>)
    ensures (OwnerTokenCookie !in cookies || cookies[OwnerTokenCookie] == "") ==> r == Err(Problem(Unauthorized, "unauthorized"))
    ensures r.Ok? ==>
      && OwnerTokenCookie in cookies && r.value in sessions
      && r.value.ownerTokenHash == Some(sha256(cookies[OwnerTokenCookie]))
      && ensureActive(r.value).None?
    ensures OwnerTokenCookie in cookies && cookies[OwnerTokenCookie] != "" ==>
      var found := FindByOwnerHash(sessions, sha256(cookies[OwnerTokenCookie]));
      && (found.None? ==> r == Err(Problem(Unauthorized, "unauthorized")))
      && (found.Some? && ensureActive(found.value).Some? ==> r == Err(ensureActive(found.value).value))
      && (found.Some? && ensureActive(found.value).None? ==> r == Ok(found.value))
  {
    if OwnerTokenCookie !in cookies || cookies[OwnerTokenCookie] == "" then Err(Problem(Unauthorized, "unauthorized"))
    else
      var found := FindByOwnerHash(sessions, sha256(cookies[OwnerTokenCookie]));
      if found.None? then Err(Problem(Unauthorized, "unauthorized"))
      else if ensureActive(found.value).Some? then Err(ensureActive(found.value).value)
      else Ok(found.value)
  }

  /** A cookie whose hash no session stores is refused with 401. */
  lemma UnknownCookieUnauthorized(cookies: map<string, string>, sessions: seq<SessionRecord>,
                                  sha256: string -> string, ensureActive: SessionRecord -> Option<Problem>)
    requires OwnerTokenCookie in cookies
    requires forall s :: s in sessions ==> s.ownerTokenHash != Some(sha256(cookies[OwnerTokenCookie]))
    ensures GetOwnerSession(cookies, sessions, sha256, ensureActive) == Err(Problem(Unauthorized, "unauthorized"))
  {
  }

  /** With a collision-free hash, two cookies that open the same session are the same token. */
  lemma OneTokenPerSession(c1: map<string, string>, c2: map<string, string>, sessions: seq<SessionRecord>,
                           sha256: string -> string, ensureActive: SessionRecord -> Option<Problem>)
    requires Injective(sha256)
    requires GetOwnerSession(c1, sessions, sha256, ensureActive).Ok?
    requires GetOwnerSession(c2, sessions, sha256, ensureActive).Ok?
    requires GetOwnerSession(c1, sessions, sha256, ensureActive).value == GetOwnerSession(c2, sessions, sha256, ensureActive).value
    ensures c1[OwnerTokenCookie] == c2[OwnerTokenCookie]
  {
  }

  datatype Cookie = Cookie(key: string, value: string, httpOnly: bool, sameSite: string, secure: bool, path: string)

  datatype RedirectResponse = RedirectResponse(status: int, location: string, cookie: Cookie, headers: Headers)

  /** `owner_exchange`: a known owner link sets the cookie to the raw token and redirects to `/me`. */
  function OwnerExchange(
    ownerToken: string, scheme: string, sessions: seq<SessionRecord>, base: Headers,
    sha256: string -> string, ensureActive: SessionRecord -> Option<Problem>): (r: Result<RedirectResponse, Problem>)
    ensures FindByOwnerHash(sessions, sha256(ownerToken)).None? ==> r == Err(Problem(NotFound, "owner-link-not-found"))
    ensures r.Ok? ==>
      && r.value.status == SeeOther && r.value.location == "/me"
      && r.value.cookie == Cookie(OwnerTokenCookie, ownerToken, true, "lax", scheme == "https", "/")
      && HasHeader(r.value.headers, "Cache-Control", "no-store")
      && HasHeader(r.value.headers, "Referrer-Policy", "no-referrer")
    ensures FindByOwnerHash(sessions, sha256(ownerToken)).Some? ==>
      var s := FindByOwnerHash(sessions, sha256(ownerToken)).value;
      && (ensureActive(s).Some? ==> r == Err(ensureActive(s).value))
      && (ensureActive(s).None? ==> r.Ok?)
  {
    var found := FindByOwnerHash(sessions, sha256(ownerToken));
    if found.None? then Err(Problem(NotFound, "owner-link-not-found"))
    else if ensureActive(found.value).Some? then Err(ensureActive(found.value).value)
    else
      Ok(RedirectResponse(SeeOther, "/me",
        Cookie(OwnerTokenCookie, ownerToken, true, "lax", scheme == "https", "/"),
        OwnerPageHeaders(base)))
  }

  /** The cookie the exchange sets authenticates the same session on the next request. */
  lemma ExchangeThenAuthenticate(
    ownerToken: string, scheme: string, sessions: seq<SessionRecord>, base: Headers,
    sha256: string -> string, ensureActive: SessionRecord -> Option<Problem>)
    requires ownerToken != ""
    requires OwnerExchange(ownerToken, scheme, sessions, base, sha256, ensureActive).Ok?
    ensures var cookie := OwnerExchange(ownerToken, scheme, sessions, base, sha256, ensureActive).value.cookie;
      GetOwnerSession(map[cookie.key := cookie.value], sessions, sha256, ensureActive)
        == Ok(FindByOwnerHash(sessions, sha256(ownerToken)).value)
  {
  }

  /**
   * The owner of an active session gets in: with owner hashes unique, as the
   * database column makes them, the exchange of the session's owner token
   * succeeds and the cookie holding that token opens exactly that session.
   */
  lemma OwnerTokenAccepted(
    ownerToken: string, scheme: string, s: SessionRecord, sessions: seq<SessionRecord>, base: Headers,
    sha256: string -> string, ensureActive: SessionRecord -> Option<Problem>)
    requires ownerToken != "" && s in sessions && s.ownerTokenHash == Some(sha256(ownerToken))
    requires forall t :: t in sessions && t.ownerTokenHash == s.ownerTokenHash ==> t == s
    requires ensureActive(s).None?
    ensures OwnerExchange(ownerToken, scheme, sessions, base, sha256, ensureActive).Ok?
    ensures GetOwnerSession(map[OwnerTokenCookie := ownerToken], sessions, sha256, ensureActive) == Ok(s)
  {
    var found := FindByOwnerHash(sessions, sha256(ownerToken));
    assert found.Some? by {
      assert !(forall t :: t in sessions ==> t.ownerTokenHash != Some(sha256(ownerToken)));
    }
    assert found.value == s;
  }

  /** `min(100, int((count / 3) * 100))`. */
  function ProgressPercent(count: nat): (r: int)
    ensures 0 <= r <= 100
    ensures r == 100 <==> count >= Threshold
  {
    if count * 100 / Threshold < 100 then count * 100 / Threshold else 100
  }

  /** The percentage never falls as answers come in, and reads 0, 33, 66, 100 on the way to unlocking. */
  lemma ProgressPercentSteps(a: nat, b: nat)
    requires a <= b
    ensures ProgressPercent(a) <= ProgressPercent(b)
    ensures ProgressPercent(0) == 0 && ProgressPercent(1) == 33 && ProgressPercent(2) == 66 && ProgressPercent(3) == 100
  {
  }

  datatype ProgressPage = ProgressPage(
    inviteUrl: string,
    inviteToken: string,
    statusUrl: string,
    respondentCount: nat,
    threshold: nat,
    unlocked: bool,
    progressPercent: int,
    ownerName: string,
    headers: Headers)

  function NameOrEmpty(name: Option<string>): string {
    if name.Some? then name.value else ""
  }

  /** `owner_progress`; `buildInviteUrl` stands for `build_invite_url` on the request. */
  function OwnerProgress(
    cookies: map<string, string>, sessions: seq<SessionRecord>, participants: seq<Participant>, base: Headers,
    sha256: string -> string, ensureActive: SessionRecord -> Option<Problem>,
    buildInviteUrl: string -> string): (r: Result<ProgressPage, Problem>)
    ensures GetOwnerSession(cookies, sessions, sha256, ensureActive).Err? ==>
      r == Err(GetOwnerSession(cookies, sessions, sha256, ensureActive).error)
    ensures r.Ok? ==>
      var s := GetOwnerSession(cookies, sessions, sha256, ensureActive).value;
      && r.value.respondentCount == CountSubmitted(s.id, participants)
      && (r.value.unlocked <==> r.value.respondentCount >= 3)
      && (r.value.progressPercent == 100 <==> r.value.unlocked)
      && 0 <= r.value.progressPercent <= 100
      && r.value.progressPercent == ProgressPercent(r.value.respondentCount)
      && r.value.threshold == 3
      && r.value.inviteUrl == buildInviteUrl(s.inviteToken)
      && r.value.inviteToken == s.inviteToken
      && r.value.ownerName == NameOrEmpty(s.snapshotOwnerName)
      && r.value.statusUrl == "/v1/invites/" + s.inviteToken + "/status"
      && HasHeader(r.value.headers, "Cache-Control", "no-store")
      && HasHeader(r.value.headers, "Referrer-Policy", "no-referrer")
  {
    var owner := GetOwnerSession(cookies, sessions, sha256, ensureActive);
    if owner.Err? then Err(owner.error)
    else
      var s := owner.value;
      var count := CountSubmitted(s.id, participants);
      Ok(ProgressPage(
        buildInviteUrl(s.inviteToken), s.inviteToken, "/v1/invites/" + s.inviteToken + "/status",
        count, Threshold, count >= Threshold, ProgressPercent(count), NameOrEmpty(s.snapshotOwnerName),
        OwnerPageHeaders(base)))
  }

  /** One stored relation aggregate of a session. */
  datatype AggregateRow = AggregateRow(sessionId: string, relation: string, respondentCount: int, topType: Option<string>, pgi: Option<real>)

  predicate RelationLeq(a: AggregateRow, b: AggregateRow) {
    StringLeq(a.relation, b.relation)
  }

  function RowsOf(sessionId: string, rows: seq<AggregateRow>): (r: seq<AggregateRow>)
    ensures forall x :: x in r <==> x in rows && x.sessionId == sessionId
    ensures multiset(r) <= multiset(rows)
  {
    if rows == [] then []
    else
      assert rows == [rows[0]] + rows[1..];
      if rows[0].sessionId == sessionId then [rows[0]] + RowsOf(sessionId, rows[1..]) else RowsOf(sessionId, rows[1..])
  }

  /** `.filter(session_id == id).order_by(relation.asc())`. */
  function SessionRelations(sessionId: string, rows: seq<AggregateRow>): (r: seq<AggregateRow>)
    ensures multiset(r) == multiset(RowsOf(sessionId, rows))
    ensures forall i, j :: 0 <= i < j < |r| ==> StringLeq(r[i].relation, r[j].relation)
    ensures forall x :: x in r <==> x in rows && x.sessionId == sessionId
  {
    StringLeqIsTotalPreorder();
    assert TotalPreorder(RelationLeq);
    var r := SortBy(RelationLeq, RowsOf(sessionId, rows));
    assert forall x :: x in r <==> x in multiset(r);
    r
  }

  datatype ReportPage = ReportPage(
    respondentCount: nat,
    threshold: nat,
    unlocked: bool,
    relations: seq<AggregateRow>,
    ownerName: string,
    headers: Headers)

  /** `owner_report`. */
  function OwnerReport(
    cookies: map<string, string>, sessions: seq<SessionRecord>, participants: seq<Participant>,
    aggregates: seq<AggregateRow>, base: Headers,
    sha256: string -> string, ensureActive: SessionRecord -> Option<Problem>): (r: Result<ReportPage, Problem>)
    ensures GetOwnerSession(cookies, sessions, sha256, ensureActive).Err? ==>
      r == Err(GetOwnerSession(cookies, sessions, sha256, ensureActive).error)
    ensures r.Ok? ==>
      var s := GetOwnerSession(cookies, sessions, sha256, ensureActive).value;
      && r.value.respondentCount == CountSubmitted(s.id, participants)
      && r.value.threshold == 3
      && (r.value.unlocked <==> r.value.respondentCount >= 3)
      && multiset(r.value.relations) == multiset(RowsOf(s.id, aggregates))
      && (forall x :: x in r.value.relations <==> x in aggregates && x.sessionId == s.id)
      && (forall i, j :: 0 <= i < j < |r.value.relations| ==>
            StringLeq(r.value.relations[i].relation, r.value.relations[j].relation))
      && r.value.ownerName == NameOrEmpty(s.snapshotOwnerName)
      && HasHeader(r.value.headers, "Cache-Control", "no-store")
      && HasHeader(r.value.headers, "Referrer-Policy", "no-referrer")
  {
    var owner := GetOwnerSession(cookies, sessions, sha256, ensureActive);
    if owner.Err? then Err(owner.error)
    else
      var s := owner.value;
      var count := CountSubmitted(s.id, participants);
      Ok(ReportPage(count, Threshold, count >= Threshold, SessionRelations(s.id, aggregates),
        NameOrEmpty(s.snapshotOwnerName), OwnerPageHeaders(base)))
  }
}

=== FILE: ProxyHeaders.dfy ===
/**
 * The fallback `ProxyHeadersMiddleware` of app/main.py, used when Starlette
 * lacks its own: it rewrites the request scope's scheme, server and client
 * from the `X-Forwarded-*` headers (and `Host`). Header names are the
 * lower-case keys of `headers`.
 */
module ProxyHeaders {
  import opened Wrappers
  import opened Text

  /** The first comma-separated element of a header value, stripped. */
  function FirstElement(value: string): string {
    Strip(FirstField(value, ','))
  }

  /** `headers.get(name)` treated as Python truthiness: present and non-empty. */
  function Truthy(headers: map<string, string>, name: string): Option<string> {
    if name in headers && headers[name] != "" then Some(headers[name]) else None
  }

  /** The scheme after the `X-Forwarded-Proto` step. */
  function SchemeAfter(scheme: Option<string>, headers: map<string, string>): Option<string> {
    match Truthy(headers, "x-forwarded-proto")
    case None => scheme
    case Some(proto) => if FirstElement(proto) != "" then Some(FirstElement(proto)) else scheme
  }

  /** `X-Forwarded-Host`, or failing that `Host`. */
  function ForwardedHost(headers: map<string, string>): Option<string> {
    if Truthy(headers, "x-forwarded-host").Some? then Truthy(headers, "x-forwarded-host")
    else Truthy(headers, "host")
  }

  /**
   * The port of a `host:port` value: the number after the first colon when it
   * parses, else 443 for an `https` scheme and 80 otherwise.
   */
  function PortOf(portText: string, scheme: Option<string>): int {
    var parsed := if portText != "" then ParseInt(portText) else None;
    if parsed.Some? then parsed.value else if scheme == Some("https") then 443 else 80
  }

  /** The server after the host step, given the scheme the first step left. */
  function ServerAfter(scheme: Option<string>, server: Option<(string, int)>, headers: map<string, string>)
    : Option<(string, int)>
  {
    match ForwardedHost(headers)
    case None => server
    case Some(forwardedHost) =>
      var hostValue := FirstElement(forwardedHost);
      if hostValue == "" then server
      else
        var (hostname, portText) := Partition(hostValue, ':');
        Some((Lower(hostname), PortOf(portText, scheme)))
  }

  /** The client after the `X-Forwarded-For` step: the first address, keeping the old port (0 when none). */
  function ClientAfter(client: Option<(string, int)>, headers: map<string, string>): Option<(string, int)> {
    match Truthy(headers, "x-forwarded-for")
    case None => client
    case Some(forwardedFor) =>
      var clientIp := FirstElement(forwardedFor);
      if clientIp == "" then client
      else Some((clientIp, if client.Some? then client.value.1 else 0))
  }

  /** The parts of the ASGI scope this middleware rewrites. */
  class Scope {
    var scheme: Option<string>
    var server: Option<(string, int)>
    var client: Option<(string, int)>

    constructor (scheme: Option<string>, server: Option<(string, int)>, client: Option<(string, int)>)
      ensures this.scheme == scheme && this.server == server && this.client == client
    {
      this.scheme := scheme;
      this.server := server;
      this.client := client;
    }

    /** `dispatch`: the three header steps in order, each updating the scope in place. */
    method ApplyForwardedHeaders(headers: map<string, string>)
      modifies this
      ensures scheme == SchemeAfter(old(scheme), headers)
      ensures server == ServerAfter(scheme, old(server), headers)
      ensures client == ClientAfter(old(client), headers)
    {
      ApplyForwardedProto(headers);
      ApplyForwardedHost(headers);
      ApplyForwardedFor(headers);
    }

    /** `X-Forwarded-Proto`: its first element, when non-empty, becomes the scheme. */
    method ApplyForwardedProto(headers: map<string, string>)
      modifies this
      ensures scheme == SchemeAfter(old(scheme), headers)
      ensures server == old(server) && client == old(client)
    {
      if "x-forwarded-proto" in headers && headers["x-forwarded-proto"] != "" {
        var forwardedScheme := FirstElement(headers["x-forwarded-proto"]);
        if forwardedScheme != "" {
          scheme := Some(forwardedScheme);
        }
      }
    }

    /** `X-Forwarded-Host` or `Host`: its first element, when non-empty, becomes the server. */
    method ApplyForwardedHost(headers: map<string, string>)
      modifies this
      ensures server == ServerAfter(scheme, old(server), headers)
      ensures scheme == old(scheme) && client == old(client)
    {
      var forwardedHost := ForwardedHost(headers);
      if forwardedHost.Some? {
        var hostValue := FirstElement(forwardedHost.value);
        if hostValue != "" {
          var parts := Partition(hostValue, ':');
          var port: Option<int> := if parts.1 != "" then ParseInt(parts.1) else None;
          if port.None? {
            port := Some(if scheme == Some("https") then 443 else 80);
          }
          assert port.value == PortOf(parts.1, scheme);
          ServerFromHostValue(scheme, server, headers);
          server := Some((Lower(parts.0), port.value));
        }
      }
    }

    /** `X-Forwarded-For`: its first element, when non-empty, becomes the client address. */
    method ApplyForwardedFor(headers: map<string, string>)
      modifies this
      ensures client == ClientAfter(old(client), headers)
      ensures scheme == old(scheme) && server == old(server)
    {
      if "x-forwarded-for" in headers && headers["x-forwarded-for"] != "" {
        var clientIp := FirstElement(headers["x-forwarded-for"]);
        if clientIp != "" {
          var clientPort := if client.Some? then client.value.1 else 0;
          client := Some((clientIp, clientPort));
        }
      }
    }
  }

  /** With a non-empty first host element, the server is built from its two halves. */
  lemma ServerFromHostValue(scheme: Option<string>, server: Option<(string, int)>, headers: map<string, string>)
    requires ForwardedHost(headers).Some? && FirstElement(ForwardedHost(headers).value) != ""
    ensures var parts := Partition(FirstElement(ForwardedHost(headers).value), ':');
      ServerAfter(scheme, server, headers) == Some((Lower(parts.0), PortOf(parts.1, scheme)))
  {
  }

  /** The server name is lower-case and carries no port. */
  lemma ServerNameNormalised(scheme: Option<string>, server: Option<(string, int)>, headers: map<string, string>)
    requires ForwardedHost(headers).Some? && FirstElement(ForwardedHost(headers).value) != ""
    ensures var s := ServerAfter(scheme, server, headers);
      s.Some? && ':' !in s.value.0 && forall i :: 0 <= i < |s.value.0| ==> !('A' <= s.value.0[i] <= 'Z')
  {
    var hostname := Partition(FirstElement(ForwardedHost(headers).value), ':').0;
    forall i | 0 <= i < |Lower(hostname)| ensures Lower(hostname)[i] != ':' {
      assert hostname[i] != ':' by { assert hostname[i] in hostname; }
    }
  }

  /** A host value without a port gets the scheme's default port: 443 for https, 80 otherwise. */
  lemma DefaultPort(scheme: Option<string>, server: Option<(string, int)>, headers: map<string, string>)
    requires ForwardedHost(headers).Some?
    requires var v := FirstElement(ForwardedHost(headers).value); v != "" && ':' !in v
    ensures ServerAfter(scheme, server, headers).Some?
    ensures ServerAfter(scheme, server, headers).value.1 == (if scheme == Some("https") then 443 else 80)
  {
  }

  /** An explicit decimal port after the colon is the port used. */
  lemma ExplicitPort(scheme: Option<string>, server: Option<(string, int)>, headers: map<string, string>,
                     host: string, port: nat)
    requires ForwardedHost(headers).Some?
    requires ':' !in host
    requires FirstElement(ForwardedHost(headers).value) == host + ":" + ShowNat(port)
    ensures ServerAfter(scheme, server, headers) == Some((Lower(host), port))
  {
    PartitionAtFirst(host, ShowNat(port), ':');
    ParseIntShowNat(port);
  }

  /** Partitioning `a + [sep] + b`, when `a` has no separator, gives back `a` and `b`. */
  lemma {:induction false} PartitionAtFirst(a: string, b: string, sep: char)
    requires sep !in a
    ensures Partition(a + [sep] + b, sep) == (a, b)
  {
    FirstFieldAtFirst(a, b, sep);
    var v := a + [sep] + b;
    assert v[|a| + 1..] == b;
  }

  lemma {:induction false} FirstFieldAtFirst(a: string, b: string, sep: char)
    requires sep !in a
    ensures FirstField(a + [sep] + b, sep) == a
    decreases |a|
  {
    if a != [] {
      assert (a + [sep] + b)[1..] == a[1..] + [sep] + b;
      FirstFieldAtFirst(a[1..], b, sep);
    }
  }

  /** The client address is the first element of `X-Forwarded-For`, and the client port is kept. */
  lemma ClientFromFirstForwardedFor(client: Option<(string, int)>, headers: map<string, string>)
    requires Truthy(headers, "x-forwarded-for").Some?
    requires FirstElement(headers["x-forwarded-for"]) != ""
    ensures var c := ClientAfter(client, headers);
      && c.Some? && c.value.0 == FirstElement(headers["x-forwarded-for"])
      && ',' !in c.value.0
      && c.value.1 == (if client.Some? then client.value.1 else 0)
  {
    var v := FirstField(headers["x-forwarded-for"], ',');
    StripIsInfix(v);
  }

  /** Stripping keeps a contiguous piece of the text. */
  lemma StripIsInfix(s: string)
    ensures forall c :: c in Strip(s) ==> c in s
  {
    var l := StripLeft(s);
    var r := StripRight(l);
    forall c | c in r ensures c in s {
      var i :| 0 <= i < |r| && r[i] == c;
      assert r[i] == l[i];
      assert l[i] == s[|s| - |l| + i];
    }
  }
}

=== FILE: Questions.dfy ===
/**
 * The questionnaire catalogue: which seed questions a test mode asks, the
 * dictionary each seed is served as, and the fixed 20-question subset an
 * invited rater answers.
 */
module Questions {
  import opened Wrappers
  import opened Text
  import opened Sorting
  import opened Collections

  /** One catalogue question, as the questionnaire loader yields it. */
  datatype QuestionSeed = QuestionSeed(
    id: int,
    code: string,
    dim: string,
    sign: int,
    context: string,
    promptSelf: Option<string>,
    promptOther: Option<string>,
    theme: Option<string>,
    scenario: Option<string>)

  /** A value of the served dictionary. */
  datatype Value = IntV(i: int) | StrV(s: string) | NoneV

  type Payload = map<string, Value>

  const ModeToContexts: map<string, set<string>> := map[
    "basic" := {"common"},
    "friend" := {"friend"},
    "couple" := {"common", "couple"},
    "work" := {"work"},
    "partner" := {"partner"},
    "family" := {"family"}]

  const InviteModePrefix: map<string, string> := map[
    "friend" := "F",
    "work" := "W",
    "partner" := "P",
    "family" := "G"]

  const InviteDims: seq<string> := ["EI", "SN", "TF", "JP"]

  const PayloadKeys: set<string> :=
    {"id", "code", "dim", "sign", "context", "prompt_self", "prompt_other", "theme", "scenario"}

  function OptionValue(v: Option<string>): Value {
    if v.Some? then StrV(v.value) else NoneV
  }

  function ValueOption(v: Value): Option<Option<string>> {
    match v
    case StrV(s) => Some(Some(s))
    case NoneV => Some(None)
    case IntV(_) => None
  }

  /** `question_payload`: the seed's fields under their snake-case names. */
  function QuestionPayload(seed: QuestionSeed): (r: Payload)
    ensures r.Keys == PayloadKeys
  {
    map[
      "id" := IntV(seed.id),
      "code" := StrV(seed.code),
      "dim" := StrV(seed.dim),
      "sign" := IntV(seed.sign),
      "context" := StrV(seed.context),
      "prompt_self" := OptionValue(seed.promptSelf),
      "prompt_other" := OptionValue(seed.promptOther),
      "theme" := OptionValue(seed.theme),
      "scenario" := OptionValue(seed.scenario)]
  }

  /** Reads a seed back from a served dictionary; None when a field is missing or mistyped. */
  function SeedOfPayload(p: Payload): Option<QuestionSeed> {
    if PayloadKeys <= p.Keys
       && p["id"].IntV? && p["code"].StrV? && p["dim"].StrV? && p["sign"].IntV? && p["context"].StrV?
       && ValueOption(p["prompt_self"]).Some? && ValueOption(p["prompt_other"]).Some?
       && ValueOption(p["theme"]).Some? && ValueOption(p["scenario"]).Some?
    then
      Some(QuestionSeed(p["id"].i, p["code"].s, p["dim"].s, p["sign"].i, p["context"].s,
                        ValueOption(p["prompt_self"]).value, ValueOption(p["prompt_other"]).value,
                        ValueOption(p["theme"]).value, ValueOption(p["scenario"]).value))
    else None
  }

  /** Every seed field is copied unchanged: reading the dictionary back gives the seed. */
  lemma PayloadRoundTrip(seed: QuestionSeed)
    ensures SeedOfPayload(QuestionPayload(seed)) == Some(seed)
  {
  }

  /** Distinct seeds are served as distinct dictionaries. */
  lemma PayloadInjective(a: QuestionSeed, b: QuestionSeed)
    requires QuestionPayload(a) == QuestionPayload(b)
    ensures a == b
  {
    PayloadRoundTrip(a);
    PayloadRoundTrip(b);
  }

  function PayloadId(p: Payload): Option<int> {
    if "id" in p && p["id"].IntV? then Some(p["id"].i) else None
  }

  // ----- questions_for_mode -----

  datatype ModeError = UnsupportedMode(mode: string)

  /** The seeds whose context is one of `contexts`, in catalogue order. */
  function SeedsIn(seeds: seq<QuestionSeed>, contexts: set<string>): (r: seq<QuestionSeed>)
    ensures forall s :: s in r <==> s in seeds && s.context in contexts
    ensures forall i :: 0 <= i < |r| ==> r[i].context in contexts
  {
    if seeds == [] then []
    else if seeds[0].context in contexts then [seeds[0]] + SeedsIn(seeds[1..], contexts)
    else SeedsIn(seeds[1..], contexts)
  }

  lemma {:induction false} SeedsInKeepsUniqueIds(seeds: seq<QuestionSeed>, contexts: set<string>)
    requires UniqueBy(SeedId, seeds)
    ensures UniqueBy(SeedId, SeedsIn(seeds, contexts))
  {
    if seeds != [] {
      assert UniqueBy(SeedId, seeds[1..]);
      SeedsInKeepsUniqueIds(seeds[1..], contexts);
      var rest := SeedsIn(seeds[1..], contexts);
      forall k | 0 <= k < |rest| ensures rest[k].id != seeds[0].id {
        assert rest[k] in seeds[1..];
        var j :| 0 <= j < |seeds[1..]| && seeds[1..][j] == rest[k];
        assert seeds[j + 1] == rest[k];
      }
    }
  }

  /** The sort key of `questions_for_mode`. */
  function SeedId(s: QuestionSeed): int {
    s.id
  }

  predicate IdLeq(a: QuestionSeed, b: QuestionSeed) {
    a.id <= b.id
  }

  function Payloads(seeds: seq<QuestionSeed>): (r: seq<Payload>)
    ensures |r| == |seeds|
    ensures forall i :: 0 <= i < |r| ==> r[i] == QuestionPayload(seeds[i])
    ensures forall i :: 0 <= i < |r| ==> PayloadId(r[i]) == Some(seeds[i].id)
  {
    if seeds == [] then [] else [QuestionPayload(seeds[0])] + Payloads(seeds[1..])
  }

  /** The seeds of the given contexts, ordered by id; the order of seeds with equal ids is left open. */
  function SortedSeedsIn(seeds: seq<QuestionSeed>, contexts: set<string>): (r: seq<QuestionSeed>)
    ensures forall s :: s in r <==> s in seeds && s.context in contexts
    ensures forall i, j :: 0 <= i < j < |r| ==> r[i].id <= r[j].id
    ensures multiset(r) == multiset(SeedsIn(seeds, contexts))
  {
    assert TotalPreorder(IdLeq);
    var selected := SeedsIn(seeds, contexts);
    var r := SortBy(IdLeq, selected);
    assert forall s :: s in r <==> s in multiset(r);
    assert forall s :: s in selected <==> s in multiset(selected);
    assert SortedBy(IdLeq, r);
    r
  }

  /** `questions_for_mode` over the seed catalogue `seeds`; the mode is matched case-insensitively. */
  function QuestionsForMode(seeds: seq<QuestionSeed>, mode: string): (r: Result<seq<Payload>, ModeError>)
    ensures r.Ok? <==> Lower(mode) in ModeToContexts
    ensures r.Err? ==> r.error == UnsupportedMode(mode)
  {
    var normalized := Lower(mode);
    if normalized !in ModeToContexts then Err(UnsupportedMode(mode))
    else Ok(Payloads(SortedSeedsIn(seeds, ModeToContexts[normalized])))
  }

  /**
   * What a supported mode returns: exactly the dictionaries of the seeds whose
   * context the mode covers, in ascending id order.
   */
  lemma QuestionsForModeContents(seeds: seq<QuestionSeed>, mode: string)
    requires Lower(mode) in ModeToContexts
    ensures var r := QuestionsForMode(seeds, mode).value;
      && (forall p :: p in r <==>
            exists s :: s in seeds && s.context in ModeToContexts[Lower(mode)] && p == QuestionPayload(s))
      && (forall i :: 0 <= i < |r| ==> PayloadId(r[i]).Some?)
      && (forall i, j :: 0 <= i < j < |r| ==> PayloadId(r[i]).value <= PayloadId(r[j]).value)
  {
    var contexts := ModeToContexts[Lower(mode)];
    var sorted := SortedSeedsIn(seeds, contexts);
    assert QuestionsForMode(seeds, mode).value == Payloads(sorted);
    PayloadsOfSelection(seeds, contexts, sorted);
  }

  /** The payloads of a selection are exactly the payloads of the seeds it selects. */
  lemma PayloadsOfSelection(seeds: seq<QuestionSeed>, contexts: set<string>, sorted: seq<QuestionSeed>)
    requires forall s :: s in sorted <==> s in seeds && s.context in contexts
    ensures forall p :: p in Payloads(sorted) <==>
      exists s :: s in seeds && s.context in contexts && p == QuestionPayload(s)
  {
    var r := Payloads(sorted);
    forall p ensures p in r <==> exists s :: s in seeds && s.context in contexts && p == QuestionPayload(s) {
      if p in r {
        var i :| 0 <= i < |r| && r[i] == p;
        assert sorted[i] in sorted;
      }
      if s :| s in seeds && s.context in contexts && p == QuestionPayload(s) {
        var i :| 0 <= i < |sorted| && sorted[i] == s;
        assert r[i] == p;
      }
    }
  }

  /** With unique seed ids the ids come out strictly increasing. */
  lemma QuestionsForModeStrict(seeds: seq<QuestionSeed>, mode: string)
    requires Lower(mode) in ModeToContexts
    requires UniqueBy(SeedId, seeds)
    ensures var r := QuestionsForMode(seeds, mode).value;
      forall i, j :: 0 <= i < j < |r| ==> PayloadId(r[i]).value < PayloadId(r[j]).value
  {
    var contexts := ModeToContexts[Lower(mode)];
    var selected := SeedsIn(seeds, contexts);
    assert TotalPreorder(IdLeq);
    SeedsInKeepsUniqueIds(seeds, contexts);
    SortByKeepsUnique(IdLeq, SeedId, selected);
    var sorted := SortedSeedsIn(seeds, contexts);
    assert sorted == SortBy(IdLeq, selected);
    var r := Payloads(sorted);
    assert QuestionsForMode(seeds, mode).value == r;
    forall i, j | 0 <= i < j < |r| ensures PayloadId(r[i]).value < PayloadId(r[j]).value {
      assert sorted[i].id <= sorted[j].id;
      assert SeedId(sorted[i]) != SeedId(sorted[j]);
    }
  }

  // ----- select_invite_other_questions -----

  function DigitChar(d: nat): char
    requires d < 10
  {
    (('0' as int) + d) as char
  }

  /** `f"{ordinal:02d}"` for a two-digit ordinal. */
  function Pad2(n: nat): (r: string)
    requires n < 100
    ensures |r| == 2 && IsDigit(r[0]) && IsDigit(r[1])
    ensures DigitValue(r[0]) * 10 + DigitValue(r[1]) == n
  {
    [DigitChar(n / 10), DigitChar(n % 10)]
  }

  /** `<prefix>-<dim>-<NN>`. */
  function InviteCode(prefix: string, dim: string, ordinal: nat): string
    requires ordinal < 100
  {
    prefix + "-" + dim + "-" + Pad2(ordinal)
  }

  /** The allowlist codes, dimension-major: entry `k` is dimension `k / 5`, ordinal `k % 5 + 1`. */
  function AllowlistSeq(prefix: string): (r: seq<string>)
    ensures |r| == 20
  {
    seq(20, k requires 0 <= k < 20 => InviteCode(prefix, InviteDims[k / 5], k % 5 + 1))
  }

  function Allowlist(prefix: string): set<string> {
    ToSet(AllowlistSeq(prefix))
  }

  /** Two allowlist entries are equal only at the same position. */
  lemma AllowlistSeqDistinct(prefix: string)
    ensures Distinct(AllowlistSeq(prefix))
  {
    var a := AllowlistSeq(prefix);
    var n := |prefix|;
    forall i, j | 0 <= i < j < 20 ensures a[i] != a[j] {
      var di, dj := InviteDims[i / 5], InviteDims[j / 5];
      assert a[i][n + 1] == di[0] && a[j][n + 1] == dj[0];
      assert a[i][n + 5] == Pad2(i % 5 + 1)[1] && a[j][n + 5] == Pad2(j % 5 + 1)[1];
      assert DigitValue(a[i][n + 5]) == i % 5 + 1 && DigitValue(a[j][n + 5]) == j % 5 + 1;
    }
  }

  /** The allowlist holds 20 distinct codes. */
  lemma AllowlistSize(prefix: string)
    ensures |Allowlist(prefix)| == 20
  {
    AllowlistSeqDistinct(prefix);
    DistinctCard(AllowlistSeq(prefix));
  }

  /** An allowlist code is one of four dimensions followed by an ordinal 01..05. */
  lemma AllowlistMembers(prefix: string, c: string)
    ensures c in Allowlist(prefix) <==>
      exists d: nat, o: nat :: d < 4 && 1 <= o <= 5 && c == InviteCode(prefix, InviteDims[d], o)
  {
    if c in Allowlist(prefix) {
      var a := AllowlistSeq(prefix);
      assert c in a;
      var k :| 0 <= k < 20 && a[k] == c;
      AllowlistEntry(prefix, k);
      var d: nat, o: nat := k / 5, k % 5 + 1;
      assert d < 4 && 1 <= o <= 5 && c == InviteCode(prefix, InviteDims[d], o);
    }
    if d: nat, o: nat :| d < 4 && 1 <= o <= 5 && c == InviteCode(prefix, InviteDims[d], o) {
      AllowlistHas(prefix, d, o);
    }
  }

  lemma DivideByFive(q: nat, r: nat)
    requires r < 5
    ensures (q * 5 + r) / 5 == q && (q * 5 + r) % 5 == r
  {
  }

  /** Every dimension and ordinal 1..5 has its code in the allowlist. */
  lemma AllowlistHas(prefix: string, d: nat, o: nat)
    requires d < 4 && 1 <= o <= 5
    ensures InviteCode(prefix, InviteDims[d], o) in Allowlist(prefix)
  {
    var k := d * 5 + o - 1;
    DivideByFive(d, o - 1);
    AllowlistEntry(prefix, k);
    var a := AllowlistSeq(prefix);
    assert a[k] in a;
  }

  lemma AllowlistEntry(prefix: string, k: nat)
    requires k < 20
    ensures k / 5 < 4 && 1 <= k % 5 + 1 <= 5
    ensures AllowlistSeq(prefix)[k] == InviteCode(prefix, InviteDims[k / 5], k % 5 + 1)
  {
  }

  /** The payload's `code` when it is a string. */
  function CodeOf(p: Payload): Option<string> {
    if "code" in p && p["code"].StrV? then Some(p["code"].s) else None
  }

  predicate Allowed(p: Payload, allow: set<string>) {
    CodeOf(p).Some? && CodeOf(p).value in allow
  }

  /** The payloads whose code is allowlisted, in their original order. */
  function SelectAllowed(ps: seq<Payload>, allow: set<string>): (r: seq<Payload>)
    ensures forall p :: p in r <==> p in ps && Allowed(p, allow)
    ensures forall k :: 0 <= k < |r| ==> Allowed(r[k], allow)
  {
    if ps == [] then []
    else if Allowed(ps[0], allow) then [ps[0]] + SelectAllowed(ps[1..], allow)
    else SelectAllowed(ps[1..], allow)
  }

  /** The selection keeps the relative order of the payloads it keeps. */
  lemma {:induction false} SelectKeepsOrder(ps: seq<Payload>, allow: set<string>, i: nat, j: nat)
    returns (i': nat, j': nat)
    requires i < j < |ps| && Allowed(ps[i], allow) && Allowed(ps[j], allow)
    ensures i' < j' < |SelectAllowed(ps, allow)|
    ensures SelectAllowed(ps, allow)[i'] == ps[i] && SelectAllowed(ps, allow)[j'] == ps[j]
  {
    var rest := SelectAllowed(ps[1..], allow);
    if i == 0 {
      assert ps[1..][j - 1] == ps[j];
      assert ps[j] in rest;
      var k :| 0 <= k < |rest| && rest[k] == ps[j];
      i', j' := 0, k + 1;
    } else {
      assert ps[1..][i - 1] == ps[i] && ps[1..][j - 1] == ps[j];
      var a, b := SelectKeepsOrder(ps[1..], allow, i - 1, j - 1);
      if Allowed(ps[0], allow) {
        i', j' := a + 1, b + 1;
      } else {
        i', j' := a, b;
      }
    }
  }

  /** `[payload.get("code") for payload in ps if isinstance(code, str)]`. */
  function Codes(ps: seq<Payload>): (r: seq<string>)
    ensures (forall k :: 0 <= k < |ps| ==> CodeOf(ps[k]).Some?) ==>
      |r| == |ps| && forall k :: 0 <= k < |ps| ==> r[k] == CodeOf(ps[k]).value
  {
    if ps == [] then []
    else if CodeOf(ps[0]).Some? then [CodeOf(ps[0]).value] + Codes(ps[1..])
    else Codes(ps[1..])
  }

  datatype SelectionError = SelectionFailed(mode: string, got: nat, missing: set<string>)

  /** Every selected payload has a string code, and every such code is allowlisted. */
  lemma SelectedCodesAllowed(payloads: seq<Payload>, allow: set<string>)
    ensures |Codes(SelectAllowed(payloads, allow))| == |SelectAllowed(payloads, allow)|
    ensures ToSet(Codes(SelectAllowed(payloads, allow))) <= allow
  {
    var selected := SelectAllowed(payloads, allow);
    var codes := Codes(selected);
    forall x | x in ToSet(codes) ensures x in allow {
      var k :| 0 <= k < |codes| && codes[k] == x;
      assert Allowed(selected[k], allow);
    }
  }

  /**
   * The selection against an allowlist: fails unless 20 payloads are selected
   * and no allowlisted code is missing. With a 20-code allowlist a success
   * carries each code exactly once.
   */
  function SelectExactly(mode: string, allow: set<string>, payloads: seq<Payload>): (r: Result<seq<Payload>, SelectionError>)
    ensures var selected := SelectAllowed(payloads, allow);
      && (r.Ok? <==> |selected| == 20 && allow <= ToSet(Codes(selected)))
      && (r.Ok? ==> r.value == selected)
      && (r.Ok? && |allow| == 20 ==> ToSet(Codes(selected)) == allow && Distinct(Codes(selected)))
  {
    var selected := SelectAllowed(payloads, allow);
    var selectedCodes := ToSet(Codes(selected));
    var missing := allow - selectedCodes;
    if |selected| != 20 || missing != {} then
      Err(SelectionFailed(mode, |selected|, missing))
    else
      SelectedCodesAllowed(payloads, allow);
      assert |allow| == 20 ==> selectedCodes == allow && Distinct(Codes(selected)) by {
        if |allow| == 20 {
          assert selectedCodes == allow;
          FullMeansDistinct(Codes(selected));
        }
      }
      Ok(selected)
  }

  /** `select_invite_other_questions`: modes without an invite prefix pass the payloads through. */
  function SelectInviteOtherQuestions(mode: string, payloads: seq<Payload>): (r: Result<seq<Payload>, SelectionError>)
    ensures Lower(mode) !in InviteModePrefix ==> r == Ok(payloads)
    ensures Lower(mode) in InviteModePrefix ==>
      var allow := Allowlist(InviteModePrefix[Lower(mode)]);
      var selected := SelectAllowed(payloads, allow);
      && (r.Ok? <==> |selected| == 20 && allow <= ToSet(Codes(selected)))
      && (r.Ok? ==> r.value == selected && ToSet(Codes(selected)) == allow && Distinct(Codes(selected)))
  {
    var normalized := Lower(mode);
    if normalized !in InviteModePrefix then Ok(payloads)
    else
      var prefix := InviteModePrefix[normalized];
      AllowlistSize(prefix);
      SelectExactly(mode, Allowlist(prefix), payloads)
  }

  lemma DuplicateSelectionFails(mode: string, allow: set<string>, payloads: seq<Payload>, i: nat, j: nat)
    requires |allow| == 20
    requires i < j < |payloads| && Allowed(payloads[i], allow)
    requires CodeOf(payloads[i]) == CodeOf(payloads[j])
    ensures SelectExactly(mode, allow, payloads).Err?
  {
    var selected := SelectAllowed(payloads, allow);
    var a, b := SelectKeepsOrder(payloads, allow, i, j);
    assert Codes(selected)[a] == Codes(selected)[b];
  }

  /** Two payloads carrying the same allowlisted code make the selection fail. */
  lemma DuplicateCodeRejected(mode: string, payloads: seq<Payload>, i: nat, j: nat)
    requires Lower(mode) in InviteModePrefix
    requires i < j < |payloads|
    requires Allowed(payloads[i], Allowlist(InviteModePrefix[Lower(mode)]))
    requires CodeOf(payloads[i]) == CodeOf(payloads[j])
    ensures SelectInviteOtherQuestions(mode, payloads).Err?
  {
    var prefix := InviteModePrefix[Lower(mode)];
    AllowlistSize(prefix);
    DuplicateSelectionFails(mode, Allowlist(prefix), payloads, i, j);
  }

  /** Basic and couple have no invite subset: the payloads pass through untouched. */
  lemma NonInviteModesPassThrough(payloads: seq<Payload>)
    ensures SelectInviteOtherQuestions("basic", payloads) == Ok(payloads)
    ensures SelectInviteOtherQuestions("Couple", payloads) == Ok(payloads)
  {
    var basic, couple := Lower("basic"), Lower("Couple");
    assert basic[0] == 'b' && couple[0] == 'c';
    assert forall k :: k in InviteModePrefix ==> |k| > 0 && (k[0] == 'f' || k[0] == 'w' || k[0] == 'p');
    assert basic !in InviteModePrefix && couple !in InviteModePrefix;
  }
}

=== FILE: Records.dfy ===
/**
 * The stored rows the invite and owner pages read: sessions and their
 * participants, and the three queries over participants they run.
 */
module Records {
  import opened Wrappers

  /**
   * A `datetime`: a count of seconds on its own clock and, when it is
   * timezone-aware, that clock's offset from UTC in seconds.
   */
  datatype DateTime = DateTime(seconds: int, utcOffset: Option<int>)

  /** The instant a datetime names, a naive one read as UTC (`replace(tzinfo=timezone.utc)`). */
  function AsUtc(t: DateTime): int {
    if t.utcOffset.Some? then t.seconds - t.utcOffset.value else t.seconds
  }

  /** One rated session, with the fields the invite and owner pages use. */
  datatype SessionRecord = SessionRecord(
    id: string,
    inviteToken: string,
    ownerTokenHash: Option<string>,
    expiresAt: DateTime,
    maxRaters: int,
    snapshotOwnerName: Option<string>)

  /** One invited rater; `answersSubmittedAt` is set (UTC seconds) once they have answered. */
  datatype Participant = Participant(id: int, sessionId: string, answersSubmittedAt: Option<int>)

  /** `.filter(invite_token == token).first()`. */
  function FindByInviteToken(sessions: seq<SessionRecord>, token: string): (r: Option<SessionRecord>)
    ensures r.Some? ==> r.value in sessions && r.value.inviteToken == token
    ensures r.None? <==> forall s :: s in sessions ==> s.inviteToken != token
  {
    if sessions == [] then None
    else if sessions[0].inviteToken == token then Some(sessions[0])
    else FindByInviteToken(sessions[1..], token)
  }

  /** `.filter(owner_token_hash == hash).first()`. */
  function FindByOwnerHash(sessions: seq<SessionRecord>, hash: string): (r: Option<SessionRecord>)
    ensures r.Some? ==> r.value in sessions && r.value.ownerTokenHash == Some(hash)
    ensures r.None? <==> forall s :: s in sessions ==> s.ownerTokenHash != Some(hash)
  {
    if sessions == [] then None
    else if sessions[0].ownerTokenHash == Some(hash) then Some(sessions[0])
    else FindByOwnerHash(sessions[1..], hash)
  }

  /** The participant belongs to the session and has submitted answers. */
  predicate Submitted(sessionId: string, p: Participant) {
    p.sessionId == sessionId && p.answersSubmittedAt.Some?
  }

  /** `count(Participant.id)` over this session's participants. */
  function CountAll(sessionId: string, ps: seq<Participant>): (r: nat)
    ensures r <= |ps|
    ensures r == 0 <==> forall p :: p in ps ==> p.sessionId != sessionId
  {
    if ps == [] then 0
    else CountAll(sessionId, ps[..|ps| - 1]) + (if ps[|ps| - 1].sessionId == sessionId then 1 else 0)
  }

  /** The same count restricted to participants whose answers are submitted. */
  function CountSubmitted(sessionId: string, ps: seq<Participant>): (r: nat)
    ensures r <= CountAll(sessionId, ps)
    ensures r == 0 <==> forall p :: p in ps ==> !Submitted(sessionId, p)
  {
    if ps == [] then 0
    else CountSubmitted(sessionId, ps[..|ps| - 1]) + (if Submitted(sessionId, ps[|ps| - 1]) then 1 else 0)
  }

  /** `max(answers_submitted_at)` over the submitted participants; None when there are none. */
  function LatestSubmission(sessionId: string, ps: seq<Participant>): (r: Option<int>)
    ensures r.Some? ==> exists p :: p in ps && Submitted(sessionId, p) && p.answersSubmittedAt == r
  {
    if ps == [] then None
    else
      var before := LatestSubmission(sessionId, ps[..|ps| - 1]);
      var last := ps[|ps| - 1];
      if !Submitted(sessionId, last) then before
      else if before.None? || before.value < last.answersSubmittedAt.value then last.answersSubmittedAt
      else before
  }

  /** The latest submission time is the maximum over the submitted participants, and none iff nobody submitted. */
  lemma {:induction false} LatestSubmissionIsMax(sessionId: string, ps: seq<Participant>)
    ensures var r := LatestSubmission(sessionId, ps);
      && (r.None? <==> CountSubmitted(sessionId, ps) == 0)
      && (r.Some? ==> exists p :: p in ps && Submitted(sessionId, p) && p.answersSubmittedAt == r)
      && (forall p :: p in ps && Submitted(sessionId, p) ==> r.Some? && p.answersSubmittedAt.value <= r.value)
  {
    if ps != [] {
      var init, last := ps[..|ps| - 1], ps[|ps| - 1];
      assert ps == init + [last];
      LatestSubmissionIsMax(sessionId, init);
      var before := LatestSubmission(sessionId, init);
      if before.Some? {
        var q :| q in init && Submitted(sessionId, q) && q.answersSubmittedAt == before;
        assert q in ps;
      }
      assert last in ps;
    }
  }

  /** Adding a participant who has not submitted changes neither the submitted count nor the latest time. */
  lemma PendingParticipantIgnored(sessionId: string, ps: seq<Participant>, p: Participant)
    requires p.answersSubmittedAt.None?
    ensures CountSubmitted(sessionId, ps + [p]) == CountSubmitted(sessionId, ps)
    ensures LatestSubmission(sessionId, ps + [p]) == LatestSubmission(sessionId, ps)
    ensures CountAll(sessionId, ps + [p]) == CountAll(sessionId, ps) + (if p.sessionId == sessionId then 1 else 0)
  {
    assert (ps + [p])[..|ps|] == ps;
  }

  /** Other sessions' participants are not counted. */
  lemma OtherSessionIgnored(sessionId: string, ps: seq<Participant>, p: Participant)
    requires p.sessionId != sessionId
    ensures CountSubmitted(sessionId, ps + [p]) == CountSubmitted(sessionId, ps)
    ensures CountAll(sessionId, ps + [p]) == CountAll(sessionId, ps)
    ensures LatestSubmission(sessionId, ps + [p]) == LatestSubmission(sessionId, ps)
  {
    assert (ps + [p])[..|ps|] == ps;
  }
}

=== FILE: RelationTables.dfy ===
/**
 * The relation tables of app/main.py: display labels, the canonical
 * relation each form value stands for, and the question set used for each
 * canonical relation. Every lookup falls back to a default rather than
 * failing.
 */
module RelationTables {

  /** `RELATION_LABELS`: the Korean display label of each relation value. */
  const RelationLabels: map<string, string> := map[
    "friend" := "친구",
    "family" := "가족",
    "partner" := "부부/커플",
    "coworker" := "직장",
    "other" := "기타",
    "lover" := "연인",
    "crush" := "썸",
    "spouse" := "부부",
    "sibling" := "형제"
  ]

  /** `RELATION_CANONICAL`: the canonical relation behind each form value. */
  const RelationCanonical: map<string, string> := map[
    "friend" := "friend",
    "coworker" := "coworker",
    "lover" := "partner",
    "crush" := "partner",
    "spouse" := "partner",
    "sibling" := "family",
    "family" := "family",
    "partner" := "partner",
    "other" := "other"
  ]

  /** `RELATION_QUESTION_SET`: the question set of each canonical relation. */
  const RelationQuestionSet: map<string, string> := map[
    "friend" := "friend",
    "coworker" := "friend",
    "partner" := "friend",
    "family" := "friend",
    "other" := "friend"
  ]

  /** The five canonical relations. */
  const CanonicalRelations: set<string> := {"friend", "coworker", "partner", "family", "other"}

  /** `RELATION_CANONICAL.get(value, value)`: known values are canonicalised, unknown ones pass through. */
  function Canonical(value: string): (r: string)
    ensures value in RelationCanonical ==> r in CanonicalRelations
    ensures value !in RelationCanonical ==> r == value
  {
    if value in RelationCanonical then RelationCanonical[value] else value
  }

  /** `_resolve_relation_question_mode`: whatever the relation, the question set is the friend one. */
  function ResolveRelationQuestionMode(value: string): (r: string)
    ensures r == "friend"
  {
    var canonical := Canonical(value);
    if canonical in RelationQuestionSet then RelationQuestionSet[canonical] else "friend"
  }

  /**
   * The label of the friend form (`submit_friend`): the raw value's label,
   * else the canonical relation's label, else the canonical relation itself.
   */
  function FormRelationLabel(raw: string): (r: string)
    ensures raw in RelationLabels ==> r == RelationLabels[raw]
    ensures raw in RelationCanonical ==> r in RelationLabels.Values
    ensures raw !in RelationCanonical && raw !in RelationLabels ==> r == raw
  {
    var canonical := Canonical(raw);
    LabelOr(raw, LabelOr(canonical, canonical))
  }

  /** `RELATION_LABELS.get(key, default)`. */
  function LabelOr(key: string, default: string): string {
    if key in RelationLabels then RelationLabels[key] else default
  }

  /**
   * The label of the result page (`mbti_result`): a label the form sent wins;
   * otherwise as for the friend form.
   */
  function ResultRelationLabel(formLabel: string, relationship: string): (r: string)
    ensures formLabel != "" ==> r == formLabel
    ensures formLabel == "" && relationship in RelationCanonical ==> r in RelationLabels.Values
    ensures formLabel == "" && relationship !in RelationCanonical && relationship !in RelationLabels ==> r == relationship
  {
    if formLabel != "" then formLabel else FormRelationLabel(relationship)
  }

  /** The romantic aliases canonicalise to partner, sibling to family, and the canonical names to themselves. */
  lemma CanonicalAliases()
    ensures Canonical("lover") == "partner" && Canonical("crush") == "partner" && Canonical("spouse") == "partner"
    ensures Canonical("sibling") == "family"
    ensures forall c :: c in CanonicalRelations ==> Canonical(c) == c
  {
  }

  /** Canonicalising twice is canonicalising once. */
  lemma CanonicalIdempotent(value: string)
    ensures Canonical(Canonical(value)) == Canonical(value)
  {
    if value in RelationCanonical {
      var c := RelationCanonical[value];
      assert c in CanonicalRelations;
      assert c == "friend" || c == "coworker" || c == "partner" || c == "family" || c == "other";
    }
  }

  /** The result page shows the label the friend form computed when the form passes it on. */
  lemma ResultRelationLabelAgrees(relationship: string)
    ensures ResultRelationLabel(FormRelationLabel(relationship), relationship) == FormRelationLabel(relationship)
  {
  }
}

=== FILE: ResultReport.dfy ===
/**
 * The relation report shown after a rater submits (`mbti_result`): the
 * per-relation aggregates are revealed only once three raters have answered,
 * and the average visible perception gap (PGI) selects a burnout message.
 */
module ResultReport {
  import opened Wrappers
  import opened Scoring
  import opened RelationTables

  /** One row of the recalculated aggregates. */
  datatype RelationAggregate = RelationAggregate(relation: string, respondentCount: int, topType: Option<string>, pgi: Option<real>)

  /** What the aggregate recalculation returns. */
  datatype AggregateSummary = AggregateSummary(totalRespondents: int, relations: seq<RelationAggregate>)

  /** One row of `relation_summary` as the page receives it. */
  datatype RelationRow = RelationRow(relation: string, respondentCount: int, topType: Option<string>, pgi: Option<real>)

  datatype Burnout = High | Medium | Low

  const UnlockThreshold := 3

  /** The message of each burnout level. */
  function BurnoutMessage(b: Burnout): string {
    match b
    case High => "관계별 인식 격차가 높아 지침/번아웃 위험 신호가 있습니다. 휴식과 경계 설정 대화를 권장합니다."
    case Medium => "관계별 인식 격차가 누적되고 있어 피로 신호를 점검해 보는 것이 좋습니다."
    case Low => "현재는 큰 소진 신호가 보이지 않지만, 주기적으로 인식 차이를 점검해 보세요."
  }

  /** `round(x, 2)`, half to even, on exact reals. */
  function Round2(x: real): (r: real)
    ensures x - 0.005 <= r <= x + 0.005
  {
    RoundHalfEven(x * 100.0) as real / 100.0
  }

  predicate Unlocked(summary: AggregateSummary) {
    summary.totalRespondents >= UnlockThreshold
  }

  /** One row: the relation's display label, its count, and the aggregates only when unlocked. */
  function Row(item: RelationAggregate, unlocked: bool): (r: RelationRow)
    ensures item.relation in RelationLabels ==> r.relation in RelationLabels.Values
    ensures item.relation !in RelationLabels ==> r.relation == item.relation
    ensures r.respondentCount == item.respondentCount
    ensures !unlocked ==> r.topType.None? && r.pgi.None?
    ensures unlocked ==> r.topType == item.topType && (r.pgi.Some? <==> item.pgi.Some?)
    ensures r.pgi.Some? ==> item.pgi.Some? && item.pgi.value - 0.005 <= r.pgi.value <= item.pgi.value + 0.005
  {
    RelationRow(
      LabelOr(item.relation, item.relation),
      item.respondentCount,
      if unlocked then item.topType else None,
      if unlocked && item.pgi.Some? then Some(Round2(item.pgi.value)) else None)
  }

  /** `relation_summary`, row for row. */
  function RelationSummary(summary: AggregateSummary): (r: seq<RelationRow>)
    ensures |r| == |summary.relations|
    ensures forall i :: 0 <= i < |r| ==> r[i] == Row(summary.relations[i], Unlocked(summary))
  {
    seq(|summary.relations|, i requires 0 <= i < |summary.relations| => Row(summary.relations[i], Unlocked(summary)))
  }

  /** `visible_pgi`: the shown PGI values, in row order. */
  function VisiblePgi(rows: seq<RelationRow>): (r: seq<real>)
    ensures |r| <= |rows|
    ensures r == [] <==> forall i :: 0 <= i < |rows| ==> rows[i].pgi.None?
  {
    if rows == [] then []
    else
      var rest := VisiblePgi(rows[..|rows| - 1]);
      var last := rows[|rows| - 1];
      assert forall i :: 0 <= i < |rows| - 1 ==> rows[..|rows| - 1][i] == rows[i];
      if last.pgi.Some? then rest + [last.pgi.value] else rest
  }

  function Sum(xs: seq<real>): real {
    if xs == [] then 0.0 else Sum(xs[..|xs| - 1]) + xs[|xs| - 1]
  }

  function Average(xs: seq<real>): real
    requires xs != []
  {
    Sum(xs) / |xs| as real
  }

  /** `burnout_signal`: none without a visible PGI, otherwise by average at 60 and 40. */
  function BurnoutSignal(rows: seq<RelationRow>): (r: Option<Burnout>)
    ensures r.None? <==> forall i :: 0 <= i < |rows| ==> rows[i].pgi.None?
    ensures r.Some? ==>
      && VisiblePgi(rows) != []
      && (r.value == High <==> Average(VisiblePgi(rows)) >= 60.0)
      && (r.value == Medium <==> 40.0 <= Average(VisiblePgi(rows)) < 60.0)
      && (r.value == Low <==> Average(VisiblePgi(rows)) < 40.0)
  {
    var visible := VisiblePgi(rows);
    if visible == [] then None
    else
      var avg := Average(visible);
      if avg >= 60.0 then Some(High) else if avg >= 40.0 then Some(Medium) else Some(Low)
  }

  /** Locked: every row keeps its label and count but shows no top type, no PGI, and no burnout message. */
  lemma LockedHidesAggregates(summary: AggregateSummary)
    requires summary.totalRespondents < 3
    ensures var rows := RelationSummary(summary);
      && (forall i :: 0 <= i < |rows| ==>
            rows[i].respondentCount == summary.relations[i].respondentCount
            && rows[i].topType.None? && rows[i].pgi.None?)
      && BurnoutSignal(rows).None?
  {
  }

  /** Unlocked: the top type is shown as is and a present PGI rounded to two places. */
  lemma UnlockedShowsAggregates(summary: AggregateSummary)
    requires summary.totalRespondents >= 3
    ensures var rows := RelationSummary(summary);
      forall i :: 0 <= i < |rows| ==>
        && rows[i].respondentCount == summary.relations[i].respondentCount
        && rows[i].topType == summary.relations[i].topType
        && (rows[i].pgi.Some? <==> summary.relations[i].pgi.Some?)
        && (rows[i].pgi.Some? ==> Round2(summary.relations[i].pgi.value) == rows[i].pgi.value)
  {
  }

  /**
   * Every relation of the label table is shown by its Korean label, two
   * different relations never share a label, and a relation without a label
   * is shown as stored.
   */
  lemma RowLabels(item: RelationAggregate, unlocked: bool)
    ensures item.relation == "friend" ==> Row(item, unlocked).relation == "친구"
    ensures item.relation == "family" ==> Row(item, unlocked).relation == "가족"
    ensures item.relation == "partner" ==> Row(item, unlocked).relation == "부부/커플"
    ensures item.relation == "coworker" ==> Row(item, unlocked).relation == "직장"
    ensures item.relation == "other" ==> Row(item, unlocked).relation == "기타"
    ensures item.relation == "lover" ==> Row(item, unlocked).relation == "연인"
    ensures item.relation == "crush" ==> Row(item, unlocked).relation == "썸"
    ensures item.relation == "spouse" ==> Row(item, unlocked).relation == "부부"
    ensures item.relation == "sibling" ==> Row(item, unlocked).relation == "형제"
    ensures item.relation !in RelationLabels ==> Row(item, unlocked).relation == item.relation
  {
  }

  /** Two known relations with the same displayed label are the same relation. */
  lemma LabelsDistinct(a: RelationAggregate, b: RelationAggregate, unlocked: bool)
    requires a.relation in RelationLabels && b.relation in RelationLabels
    requires Row(a, unlocked).relation == Row(b, unlocked).relation
    ensures a.relation == b.relation
  {
  }

  lemma {:induction false} SumAtLeast(xs: seq<real>, lo: real)
    requires forall i :: 0 <= i < |xs| ==> lo <= xs[i]
    ensures lo * |xs| as real <= Sum(xs)
  {
    if xs != [] {
      var n := |xs| - 1;
      assert forall i :: 0 <= i < n ==> xs[..n][i] == xs[i];
      SumAtLeast(xs[..n], lo);
    }
  }

  lemma {:induction false} SumBelow(xs: seq<real>, hi: real)
    requires xs != []
    requires forall i :: 0 <= i < |xs| ==> xs[i] < hi
    ensures Sum(xs) < hi * |xs| as real
  {
    var n := |xs| - 1;
    assert forall i :: 0 <= i < n ==> xs[..n][i] == xs[i];
    if n > 0 {
      SumBelow(xs[..n], hi);
    }
  }

  /** The average of values all at least `lo` is at least `lo`. */
  lemma AverageAtLeast(xs: seq<real>, lo: real)
    requires xs != []
    requires forall i :: 0 <= i < |xs| ==> lo <= xs[i]
    ensures lo <= Average(xs)
  {
    SumAtLeast(xs, lo);
    var n := |xs| as real;
    assert Average(xs) * n == Sum(xs);
  }

  /** The average of values all below `hi` is below `hi`. */
  lemma AverageBelow(xs: seq<real>, hi: real)
    requires xs != []
    requires forall i :: 0 <= i < |xs| ==> xs[i] < hi
    ensures Average(xs) < hi
  {
    SumBelow(xs, hi);
    var n := |xs| as real;
    assert Average(xs) * n == Sum(xs);
  }

  /** A bound every shown PGI obeys carries over to the visible list. */
  lemma {:induction false} VisiblePgiBounded(rows: seq<RelationRow>, lo: real, hi: real, useLo: bool, useHi: bool)
    requires forall i :: 0 <= i < |rows| && rows[i].pgi.Some? ==>
      (useLo ==> lo <= rows[i].pgi.value) && (useHi ==> rows[i].pgi.value < hi)
    ensures forall k :: 0 <= k < |VisiblePgi(rows)| ==>
      (useLo ==> lo <= VisiblePgi(rows)[k]) && (useHi ==> VisiblePgi(rows)[k] < hi)
  {
    if rows != [] {
      var n := |rows| - 1;
      assert forall i :: 0 <= i < n ==> rows[..n][i] == rows[i];
      VisiblePgiBounded(rows[..n], lo, hi, useLo, useHi);
    }
  }

  /**
   * The message follows the shown PGI values: all at least 60 gives the high
   * message, all in [40, 60) the medium one, all below 40 the low one.
   */
  lemma BurnoutLevels(rows: seq<RelationRow>)
    requires exists i :: 0 <= i < |rows| && rows[i].pgi.Some?
    ensures (forall i :: 0 <= i < |rows| && rows[i].pgi.Some? ==> 60.0 <= rows[i].pgi.value)
      ==> BurnoutSignal(rows) == Some(High)
    ensures (forall i :: 0 <= i < |rows| && rows[i].pgi.Some? ==> 40.0 <= rows[i].pgi.value < 60.0)
      ==> BurnoutSignal(rows) == Some(Medium)
    ensures (forall i :: 0 <= i < |rows| && rows[i].pgi.Some? ==> rows[i].pgi.value < 40.0)
      ==> BurnoutSignal(rows) == Some(Low)
  {
    var visible := VisiblePgi(rows);
    if forall i :: 0 <= i < |rows| && rows[i].pgi.Some? ==> 60.0 <= rows[i].pgi.value {
      VisiblePgiBounded(rows, 60.0, 0.0, true, false);
      AverageAtLeast(visible, 60.0);
    }
    if forall i :: 0 <= i < |rows| && rows[i].pgi.Some? ==> 40.0 <= rows[i].pgi.value < 60.0 {
      VisiblePgiBounded(rows, 40.0, 60.0, true, true);
      AverageAtLeast(visible, 40.0);
      AverageBelow(visible, 60.0);
    }
    if forall i :: 0 <= i < |rows| && rows[i].pgi.Some? ==> rows[i].pgi.value < 40.0 {
      VisiblePgiBounded(rows, 0.0, 40.0, false, true);
      AverageBelow(visible, 40.0);
    }
  }

  /**
   * The bands are applied to the average, not to each value: shown PGIs of
   * 30 and 90 give the high message although one of them is low.
   */
  lemma BurnoutMixedBands(rows: seq<RelationRow>)
    requires VisiblePgi(rows) == [30.0, 90.0]
    ensures BurnoutSignal(rows) == Some(High)
  {
    assert [30.0, 90.0][..1] == [30.0];
    assert Sum([30.0]) == 30.0 by {
      assert [30.0][..0] == [];
    }
  }

  /** A burnout message appears iff some row shows a PGI; when locked, none does. */
  lemma BurnoutNeedsVisiblePgi(summary: AggregateSummary)
    ensures var rows := RelationSummary(summary);
      BurnoutSignal(rows).Some? <==> exists i :: 0 <= i < |rows| && rows[i].pgi.Some?
    ensures !Unlocked(summary) ==> BurnoutSignal(RelationSummary(summary)).None?
  {
    var rows := RelationSummary(summary);
    if !Unlocked(summary) {
      assert forall i :: 0 <= i < |rows| ==> rows[i] == Row(summary.relations[i], false);
      assert forall i :: 0 <= i < |rows| ==> rows[i].pgi.None?;
    }
  }

  /** `report_meta`: who is described, by whom, and how many raters there are. */
  datatype ReportMeta = ReportMeta(
    ownerName: string,
    ownerMbti: Option<string>,
    evaluatorMbti: string,
    respondentCount: int,
    unlocked: bool)

  const DefaultOwner := "공유자"

  /** Python's `a or b` on optional strings: the first non-empty one. */
  function OrElse(a: Option<string>, b: string): string {
    if a.Some? && a.value != "" then a.value else b
  }

  function MakeReportMeta(
    snapshotOwnerName: Option<string>, friendName: string, friendMbti: string,
    selfMbti: Option<string>, mbtiType: string, summary: AggregateSummary): (r: ReportMeta)
    ensures r.ownerName != ""
    ensures r.respondentCount == summary.totalRespondents
    ensures r.unlocked <==> summary.totalRespondents >= 3
    ensures friendMbti != "" ==> r.ownerMbti == Some(friendMbti)
    ensures friendMbti == "" ==> r.ownerMbti == selfMbti
  {
    ReportMeta(
      OrElse(snapshotOwnerName, OrElse(Some(friendName), DefaultOwner)),
      if friendMbti != "" then Some(friendMbti) else selfMbti,
      mbtiType,
      summary.totalRespondents,
      Unlocked(summary))
  }

  /** The owner's name comes from the session snapshot, else the form, else the default. */
  lemma ReportMetaOwnerName(snapshotOwnerName: Option<string>, friendName: string, summary: AggregateSummary)
    ensures snapshotOwnerName.Some? && snapshotOwnerName.value != "" ==>
      MakeReportMeta(snapshotOwnerName, friendName, "", None, "", summary).ownerName == snapshotOwnerName.value
    ensures (snapshotOwnerName.None? || snapshotOwnerName.value == "") && friendName != "" ==>
      MakeReportMeta(snapshotOwnerName, friendName, "", None, "", summary).ownerName == friendName
    ensures (snapshotOwnerName.None? || snapshotOwnerName.value == "") && friendName == "" ==>
      MakeReportMeta(snapshotOwnerName, friendName, "", None, "", summary).ownerName == DefaultOwner
  {
  }
}

=== FILE: SchemaRepair.dfy ===
/**
 * The start-up repair of SQLite databases created before newer columns
 * existed: from the database URL to candidate files, and per file the
 * "add the column if it is missing" pass over the schema, with a report of
 * what was added.
 */
module SchemaRepair {
  import opened Wrappers
  import opened Text
  import opened Collections

  // ----- percent-decoding of the URL's path -----

  predicate IsHex(c: char) {
    ('0' <= c <= '9') || ('a' <= c <= 'f') || ('A' <= c <= 'F')
  }

  function HexValue(c: char): (r: nat)
    requires IsHex(c)
    ensures r < 16
  {
    if '0' <= c <= '9' then c as int - '0' as int
    else if 'a' <= c <= 'f' then c as int - 'a' as int + 10
    else c as int - 'A' as int + 10
  }

  /** `%XX` for an ASCII code XX; anything else stays as it is. */
  predicate EscapeAt(s: string)
  {
    |s| >= 3 && s[0] == '%' && IsHex(s[1]) && IsHex(s[2]) && HexValue(s[1]) * 16 + HexValue(s[2]) < 128
  }

  /** `urllib.parse.unquote` on ASCII escapes. */
  function Unquote(s: string): (r: string)
    ensures |r| <= |s|
    ensures r == [] <==> s == []
  {
    if s == [] then []
    else if EscapeAt(s) then [(HexValue(s[1]) * 16 + HexValue(s[2])) as char] + Unquote(s[3..])
    else [s[0]] + Unquote(s[1..])
  }

  /** The upper-case hex digit of a value below 16, as `quote` writes it. */
  function HexDigit(d: nat): (r: char)
    requires d < 16
    ensures IsHex(r) && HexValue(r) == d
  {
    if d < 10 then ('0' as int + d) as char else ('A' as int + d - 10) as char
  }

  /** The characters `urllib.parse.quote` leaves alone: letters, digits, `_.-~` and `/`. */
  predicate QuoteSafe(c: char) {
    ('a' <= c <= 'z') || ('A' <= c <= 'Z') || ('0' <= c <= '9')
    || c == '_' || c == '.' || c == '-' || c == '~' || c == '/'
  }

  /** The escape `%XX` of an ASCII character. */
  function Escape(c: char): (r: string)
    requires c as int < 128
    ensures |r| == 3 && r[0] == '%'
  {
    ['%', HexDigit(c as int / 16), HexDigit(c as int % 16)]
  }

  /**
   * `urllib.parse.quote` on ASCII: every ASCII character outside the safe set
   * becomes its escape; other characters are kept.
   */
  function Quote(s: string): (r: string)
    ensures (forall i :: 0 <= i < |s| ==> QuoteSafe(s[i]) || s[i] as int >= 128) ==> r == s
    ensures |s| <= |r| <= 3 * |s|
  {
    if s == [] then []
    else (if s[0] as int < 128 && !QuoteSafe(s[0]) then Escape(s[0]) else [s[0]]) + Quote(s[1..])
  }

  lemma {:induction false} UnquoteWithoutPercent(s: string)
    requires '%' !in s
    ensures Unquote(s) == s
  {
    if s != [] {
      UnquoteWithoutPercent(s[1..]);
    }
  }

  /** Every ASCII escape decodes to its character, whatever follows it. */
  lemma UnquoteEscape(c: char, rest: string)
    requires c as int < 128
    ensures Unquote(Escape(c) + rest) == [c] + Unquote(rest)
  {
    var e := Escape(c) + rest;
    assert EscapeAt(e);
    assert e[3..] == rest;
  }

  /** Decoding undoes quoting. */
  lemma {:induction false} UnquoteQuote(s: string)
    ensures Unquote(Quote(s)) == s
  {
    if s != [] {
      UnquoteQuote(s[1..]);
      var q := Quote(s);
      if s[0] as int < 128 && !QuoteSafe(s[0]) {
        assert q == Escape(s[0]) + Quote(s[1..]);
        UnquoteEscape(s[0], Quote(s[1..]));
      } else {
        assert q == [s[0]] + Quote(s[1..]);
        assert q[1..] == Quote(s[1..]);
      }
    }
  }

  // ----- _sqlite_raw_path -----

  const PysqlitePrefix: string := "sqlite+pysqlite:///"
  const SqlitePrefix: string := "sqlite:///"
  const Memory: string := ":memory:"

  function RawAfter(url: string, prefix: string): (r: Option<string>)
    requires StartsWith(url, prefix)
    ensures r.Some? ==> r.value != Memory
  {
    var raw := Unquote(url[|prefix|..]);
    if raw == Memory then None else Some(raw)
  }

  /** The file path of a SQLite URL, percent-decoded; None for an in-memory or non-SQLite URL. */
  function RawPath(url: string): (r: Option<string>)
    ensures r.Some? ==> r.value != Memory
    ensures r.Some? ==> StartsWith(url, PysqlitePrefix) || StartsWith(url, SqlitePrefix)
  {
    if StartsWith(url, PysqlitePrefix) then RawAfter(url, PysqlitePrefix)
    else if StartsWith(url, SqlitePrefix) then RawAfter(url, SqlitePrefix)
    else None
  }

  /** Quoting a path into either URL form and reading it back gives the path; `:memory:` gives None. */
  lemma RawPathRoundTrip(path: string)
    ensures RawPath(SqlitePrefix + Quote(path)) == (if path == Memory then None else Some(path))
    ensures RawPath(PysqlitePrefix + Quote(path)) == (if path == Memory then None else Some(path))
  {
    UnquoteQuote(path);
    SqliteUrlPath(Quote(path));
    PysqliteUrlPath(Quote(path));
  }

  /** Text without `%` decodes to itself, and the decoding of what follows it is unaffected. */
  lemma {:induction false} UnquotePlainPrefix(before: string, rest: string)
    requires '%' !in before
    ensures Unquote(before + rest) == before + Unquote(rest)
  {
    if before != [] {
      var u := before + rest;
      assert u[0] == before[0] && before[0] in before;
      assert !EscapeAt(u);
      assert u[1..] == before[1..] + rest;
      assert '%' !in before[1..];
      UnquotePlainPrefix(before[1..], rest);
      assert Unquote(u) == [u[0]] + Unquote(u[1..]);
      assert [before[0]] + (before[1..] + Unquote(rest)) == before + Unquote(rest);
    } else {
      assert before + rest == rest;
    }
  }

  /**
   * A URL whose path holds one escaped character between unescaped text
   * names the file with that character in place, as `my%20db.sqlite` names
   * `my db.sqlite`.
   */
  lemma RawPathDecodesEscape(before: string, c: char, after: string)
    requires '%' !in before && '%' !in after && c as int < 128
    requires before + [c] + after != Memory
    ensures RawPath(SqlitePrefix + (before + Escape(c) + after)) == Some(before + [c] + after)
  {
    UnquoteWithoutPercent(after);
    UnquoteEscape(c, after);
    assert before + Escape(c) + after == before + (Escape(c) + after);
    UnquotePlainPrefix(before, Escape(c) + after);
    assert before + ([c] + after) == before + [c] + after;
    SqliteUrlPath(before + Escape(c) + after);
  }

  /** A `sqlite:///` URL is not a `sqlite+pysqlite:///` one, and its path is the rest. */
  lemma SqliteUrlPath(rest: string)
    ensures RawPath(SqlitePrefix + rest) == RawAfter(SqlitePrefix + rest, SqlitePrefix)
    ensures (SqlitePrefix + rest)[|SqlitePrefix|..] == rest
  {
    var u := SqlitePrefix + rest;
    assert StartsWith(u, SqlitePrefix) by {
      assert u[..|SqlitePrefix|] == SqlitePrefix;
    }
    assert !StartsWith(u, PysqlitePrefix) by {
      if |PysqlitePrefix| <= |u| {
        assert u[6] == SqlitePrefix[6] == ':';
        assert u[..|PysqlitePrefix|][6] == ':' != PysqlitePrefix[6];
      }
    }
    assert u[|SqlitePrefix|..] == rest;
  }

  /** A `sqlite+pysqlite:///` URL's path is the rest. */
  lemma PysqliteUrlPath(rest: string)
    ensures RawPath(PysqlitePrefix + rest) == RawAfter(PysqlitePrefix + rest, PysqlitePrefix)
    ensures (PysqlitePrefix + rest)[|PysqlitePrefix|..] == rest
  {
    var v := PysqlitePrefix + rest;
    assert v[..|PysqlitePrefix|] == PysqlitePrefix;
    assert v[|PysqlitePrefix|..] == rest;
  }

  // ----- _candidate_paths -----

  predicate IsAbsolute(path: string) {
    StartsWith(path, "/")
  }

  function Join(base: string, path: string): string {
    base + "/" + path
  }

  /** The working directory, the image's `/app` and `/app/mbti-arcade`, each joined with the path. */
  function Candidates(raw: string, cwd: string): seq<string> {
    [Join(cwd, raw), Join("/app", raw), Join("/app/mbti-arcade", raw)]
  }

  function MapResolve(paths: seq<string>, resolve: string -> string): (r: seq<string>)
    ensures |r| == |paths|
    ensures forall i :: 0 <= i < |r| ==> r[i] == resolve(paths[i])
  {
    if paths == [] then [] else MapResolve(paths[..|paths| - 1], resolve) + [resolve(paths[|paths| - 1])]
  }

  /** Keeps the first occurrence of each element: every element once, and nothing else. */
  function Dedupe(xs: seq<string>): (r: seq<string>)
    ensures Distinct(r)
    ensures forall x :: x in r <==> x in xs
    ensures |r| <= |xs|
  {
    if xs == [] then []
    else
      var kept := Dedupe(xs[..|xs| - 1]);
      assert xs == xs[..|xs| - 1] + [xs[|xs| - 1]];
      if xs[|xs| - 1] in kept then kept else kept + [xs[|xs| - 1]]
  }

  /** Index of the first occurrence. */
  function FirstIndex(xs: seq<string>, x: string): (i: nat)
    requires x in xs
    ensures i < |xs| && xs[i] == x && x !in xs[..i]
  {
    if xs[0] == x then 0 else 1 + FirstIndex(xs[1..], x)
  }

  lemma FirstIndexInPrefix(xs: seq<string>, n: nat, x: string)
    requires n <= |xs| && x in xs[..n]
    ensures FirstIndex(xs, x) == FirstIndex(xs[..n], x)
  {
    var i := FirstIndex(xs[..n], x);
    var j := FirstIndex(xs, x);
    assert xs[..n][..i] == xs[..i];
    assert xs[i] == x && xs[j] == x;
    assert forall k :: 0 <= k < i ==> xs[..i][k] != x;
    assert forall k :: 0 <= k < j ==> xs[..j][k] != x;
  }

  /** The kept elements appear in the order of their first occurrences. */
  lemma {:induction false} DedupeOrder(xs: seq<string>)
    ensures forall i, j :: 0 <= i < j < |Dedupe(xs)| ==>
      FirstIndex(xs, Dedupe(xs)[i]) < FirstIndex(xs, Dedupe(xs)[j])
  {
    if xs != [] {
      var n := |xs| - 1;
      var init := xs[..n];
      DedupeOrder(init);
      var kept := Dedupe(init);
      var r := Dedupe(xs);
      forall i, j | 0 <= i < j < |r| ensures FirstIndex(xs, r[i]) < FirstIndex(xs, r[j]) {
        FirstIndexInPrefix(xs, n, r[i]);
        if j < |kept| {
          FirstIndexInPrefix(xs, n, r[j]);
        } else {
          assert r[j] == xs[n] && xs[n] !in init;
          assert FirstIndex(xs, r[j]) == n;
        }
      }
    }
  }

  /** One more candidate is kept iff its resolved path is new. */
  lemma DedupeStep(candidates: seq<string>, i: nat, resolve: string -> string)
    requires i < |candidates|
    ensures var unique := Dedupe(MapResolve(candidates[..i], resolve));
      var resolved := resolve(candidates[i]);
      Dedupe(MapResolve(candidates[..i + 1], resolve)) == if resolved in unique then unique else unique + [resolved]
  {
    var before := MapResolve(candidates[..i], resolve);
    var after := MapResolve(candidates[..i + 1], resolve);
    assert candidates[..i + 1][..i] == candidates[..i];
    assert after[..|after| - 1] == before;
  }

  /** `_candidate_paths`, with `Path.resolve` given as `resolve`. */
  method CandidatePaths(raw: string, cwd: string, resolve: string -> string) returns (paths: seq<string>)
    ensures IsAbsolute(raw) ==> paths == [raw]
    ensures !IsAbsolute(raw) ==> paths == Dedupe(MapResolve(Candidates(raw, cwd), resolve))
  {
    if IsAbsolute(raw) {
      return [raw];
    }
    var candidates := Candidates(raw, cwd);
    var unique: seq<string> := [];
    var seen: set<string> := {};
    for i := 0 to |candidates|
      invariant unique == Dedupe(MapResolve(candidates[..i], resolve))
      invariant forall x :: x in seen <==> x in unique
    {
      var resolved := resolve(candidates[i]);
      DedupeStep(candidates, i, resolve);
      if resolved in seen {
        continue;
      }
      seen := seen + {resolved};
      unique := unique + [resolved];
    }
    assert candidates[..|candidates|] == candidates;
    paths := unique;
  }

  /** At most three candidates, none repeated; a relative path yields at least one. */
  lemma CandidatePathsShape(raw: string, cwd: string, resolve: string -> string)
    ensures var paths := Dedupe(MapResolve(Candidates(raw, cwd), resolve));
      1 <= |paths| <= 3 && Distinct(paths) && resolve(Join(cwd, raw)) == paths[0]
  {
    var resolved := MapResolve(Candidates(raw, cwd), resolve);
    DedupeOrder(resolved);
    var paths := Dedupe(resolved);
    assert resolved[0] in paths;
    var k :| 0 <= k < |paths| && paths[k] == resolved[0];
    assert FirstIndex(resolved, resolved[0]) == 0;
  }

  // ----- the schema pass -----

  /** A column as `ALTER TABLE ... ADD COLUMN` declares it. */
  datatype Column = Column(name: string, ddlType: string, default: Option<string>)

  /** Table name to its columns, in declaration order. */
  type Schema = map<string, seq<Column>>

  const OwnerTokenHash := Column("owner_token_hash", "VARCHAR(64)", None)
  const MyAvatar := Column("my_avatar", "VARCHAR", None)
  const MyMbtiSource := Column("my_mbti_source", "VARCHAR(20)", Some("'input'"))
  const ShowPublic := Column("show_public", "BOOLEAN", Some("1"))

  const SessionsKey := "sessions.owner_token_hash"
  const AvatarKey := "pair.my_avatar"
  const SourceKey := "pair.my_mbti_source"
  const PublicKey := "pair.show_public"

  function Names(cols: seq<Column>): set<string> {
    set c | c in cols :: c.name
  }

  /** `_get_columns`: the column names of a table; none for a missing table. */
  function GetColumns(schema: Schema, table: string): (r: set<string>)
    ensures table !in schema ==> r == {}
  {
    if table in schema then Names(schema[table]) else {}
  }

  /** The table after `_maybe_add_column`: the column appended unless its name is taken. */
  function WithColumn(cols: seq<Column>, column: Column): (r: seq<Column>)
    ensures column.name in Names(r)
    ensures Names(r) == Names(cols) + {column.name}
    ensures cols <= r && |r| <= |cols| + 1
    ensures column.name in Names(cols) ==> r == cols
    ensures column.name !in Names(cols) ==> r == cols + [column]
  {
    if column.name in Names(cols) then cols else cols + [column]
  }

  /** The schema after `_maybe_add_column` on an existing table. */
  function AddColumn(schema: Schema, table: string, column: Column): (r: Schema)
    requires table in schema
    ensures r.Keys == schema.Keys
  {
    schema[table := WithColumn(schema[table], column)]
  }

  function RepairSessions(schema: Schema): Schema {
    if "sessions" in schema then AddColumn(schema, "sessions", OwnerTokenHash) else schema
  }

  function RepairPair(schema: Schema): Schema {
    if "pair" in schema
    then AddColumn(AddColumn(AddColumn(schema, "pair", MyAvatar), "pair", MyMbtiSource), "pair", ShowPublic)
    else schema
  }

  /** The schema `repair_sqlite_file` leaves behind. */
  function Repaired(schema: Schema): (r: Schema)
    ensures r.Keys == schema.Keys
  {
    RepairPair(RepairSessions(schema))
  }

  function SessionsReport(schema: Schema): map<string, bool> {
    if "sessions" in schema then map[SessionsKey := OwnerTokenHash.name !in Names(schema["sessions"])] else map[]
  }

  function PairReport(schema: Schema): map<string, bool> {
    if "pair" in schema then
      var cols := Names(schema["pair"]);
      map[AvatarKey := MyAvatar.name !in cols,
          SourceKey := MyMbtiSource.name !in cols,
          PublicKey := ShowPublic.name !in cols]
    else map[]
  }

  /** The report `repair_sqlite_file` returns: per reported column, whether it was added. */
  function Report(schema: Schema): (r: map<string, bool>)
    ensures r.Keys <= {SessionsKey, AvatarKey, SourceKey, PublicKey}
  {
    SessionsReport(schema) + PairReport(schema)
  }

  /** The session key is reported iff `sessions` exists, the pair keys iff `pair` exists, and nothing else. */
  lemma ReportKeys(schema: Schema)
    ensures SessionsKey in Report(schema) <==> "sessions" in schema
    ensures AvatarKey in Report(schema) <==> "pair" in schema
    ensures SourceKey in Report(schema) <==> "pair" in schema
    ensures PublicKey in Report(schema) <==> "pair" in schema
  {
  }

  /** A reported key is true exactly when its column was missing and is present afterwards. */
  lemma ReportMeansAdded(schema: Schema)
    ensures "sessions" in schema ==>
      Report(schema)[SessionsKey] == (OwnerTokenHash.name !in Names(schema["sessions"]))
      && OwnerTokenHash.name in Names(Repaired(schema)["sessions"])
    ensures "pair" in schema ==>
      var after := Names(Repaired(schema)["pair"]);
      && Report(schema)[AvatarKey] == (MyAvatar.name !in Names(schema["pair"]))
      && Report(schema)[SourceKey] == (MyMbtiSource.name !in Names(schema["pair"]))
      && Report(schema)[PublicKey] == (ShowPublic.name !in Names(schema["pair"]))
      && MyAvatar.name in after && MyMbtiSource.name in after && ShowPublic.name in after
  {
    RepairedHasColumns(schema);
    ReportLookup(schema);
  }

  /** Each key of the report comes from the step that owns it. */
  lemma ReportLookup(schema: Schema)
    ensures "sessions" in schema ==> Report(schema)[SessionsKey] == SessionsReport(schema)[SessionsKey]
    ensures "pair" in schema ==>
      Report(schema)[AvatarKey] == PairReport(schema)[AvatarKey]
      && Report(schema)[SourceKey] == PairReport(schema)[SourceKey]
      && Report(schema)[PublicKey] == PairReport(schema)[PublicKey]
  {
    KeysDistinct();
    var sr, pr := SessionsReport(schema), PairReport(schema);
    assert Report(schema) == sr + pr;
    if "sessions" in schema {
      assert SessionsKey !in pr;
    }
  }

  /** The four report keys are pairwise different, and so are the two repaired tables and the three `pair` columns. */
  lemma KeysDistinct()
    ensures SessionsKey != AvatarKey && SessionsKey != SourceKey && SessionsKey != PublicKey
    ensures AvatarKey != SourceKey && AvatarKey != PublicKey && SourceKey != PublicKey
    ensures "sessions" != "pair"
    ensures MyAvatar.name != MyMbtiSource.name && MyAvatar.name != ShowPublic.name && MyMbtiSource.name != ShowPublic.name
  {
    assert MyAvatar.name[3] != MyMbtiSource.name[3] && MyAvatar.name[0] != ShowPublic.name[0];
    assert MyMbtiSource.name[0] != ShowPublic.name[0];
    assert SessionsKey[0] != AvatarKey[0] && SessionsKey[0] != SourceKey[0] && SessionsKey[0] != PublicKey[0];
    assert AvatarKey[8] != SourceKey[8] && AvatarKey[5] != PublicKey[5] && SourceKey[5] != PublicKey[5];
  }

  /** After the repair, `sessions` has its column and `pair` its three. */
  lemma RepairedHasColumns(schema: Schema)
    ensures "sessions" in schema ==> OwnerTokenHash.name in Names(Repaired(schema)["sessions"])
    ensures "pair" in schema ==>
      var after := Names(Repaired(schema)["pair"]);
      MyAvatar.name in after && MyMbtiSource.name in after && ShowPublic.name in after
  {
    KeysDistinct();
    var s1 := RepairSessions(schema);
    if "sessions" in schema {
      assert s1["sessions"] == WithColumn(schema["sessions"], OwnerTokenHash);
      assert Repaired(schema)["sessions"] == s1["sessions"];
    }
    if "pair" in schema {
      var a := WithColumn(s1["pair"], MyAvatar);
      var b := WithColumn(a, MyMbtiSource);
      var c := WithColumn(b, ShowPublic);
      assert Repaired(schema)["pair"] == c;
      assert Names(c) == Names(s1["pair"]) + {MyAvatar.name, MyMbtiSource.name, ShowPublic.name};
    }
  }

  /** Only `sessions` and `pair` change, no table appears or disappears, and existing columns stay in place. */
  lemma RepairScope(schema: Schema)
    ensures Repaired(schema).Keys == schema.Keys
    ensures forall t :: t in schema && t != "sessions" && t != "pair" ==> Repaired(schema)[t] == schema[t]
    ensures forall t :: t in schema ==> schema[t] <= Repaired(schema)[t]
  {
    var s1 := RepairSessions(schema);
    if "sessions" in schema {
      AddColumnScope(schema, "sessions", OwnerTokenHash);
    }
    if "pair" in s1 {
      var a := AddColumn(s1, "pair", MyAvatar);
      var b := AddColumn(a, "pair", MyMbtiSource);
      AddColumnScope(s1, "pair", MyAvatar);
      AddColumnScope(a, "pair", MyMbtiSource);
      AddColumnScope(b, "pair", ShowPublic);
    }
  }

  /** Adding a column touches only its own table, and only by appending. */
  lemma AddColumnScope(schema: Schema, table: string, column: Column)
    requires table in schema
    ensures forall t :: t in schema && t != table ==> AddColumn(schema, table, column)[t] == schema[t]
    ensures forall t :: t in schema ==> schema[t] <= AddColumn(schema, table, column)[t]
  {
  }

  /** A second repair adds nothing and reports every column as already present. */
  lemma RepairIdempotent(schema: Schema)
    ensures Repaired(Repaired(schema)) == Repaired(schema)
    ensures forall k :: k in Report(Repaired(schema)) ==> !Report(Repaired(schema))[k]
  {
    var r := Repaired(schema);
    RepairedHasColumns(schema);
    RepairScope(schema);
    SessionsRepairFixed(r);
    PairRepairFixed(r);
  }

  /** Once `sessions` has its column, its step changes nothing and reports false. */
  lemma SessionsRepairFixed(r: Schema)
    requires "sessions" in r ==> OwnerTokenHash.name in Names(r["sessions"])
    ensures RepairSessions(r) == r
    ensures forall k :: k in SessionsReport(r) ==> !SessionsReport(r)[k]
  {
    if "sessions" in r {
      assert WithColumn(r["sessions"], OwnerTokenHash) == r["sessions"];
      assert r["sessions" := r["sessions"]] == r;
    }
  }

  /** Once `pair` has its three columns, its step changes nothing and reports false. */
  lemma PairRepairFixed(r: Schema)
    requires "pair" in r ==>
      var cols := Names(r["pair"]);
      MyAvatar.name in cols && MyMbtiSource.name in cols && ShowPublic.name in cols
    ensures RepairPair(r) == r
    ensures forall k :: k in PairReport(r) ==> !PairReport(r)[k]
  {
    if "pair" in r {
      var cols := r["pair"];
      assert WithColumn(cols, MyAvatar) == cols;
      assert WithColumn(cols, MyMbtiSource) == cols;
      assert WithColumn(cols, ShowPublic) == cols;
      assert r["pair" := cols] == r;
    }
  }

  /** Whether a key is reported true in a report that may lack it (`dict.get(key, False)`). */
  predicate Flag(report: map<string, bool>, key: string) {
    key in report && report[key]
  }

  /** `combined[key] = combined.get(key, False) or value` for every key of `report`. */
  function Merge(combined: map<string, bool>, report: map<string, bool>): (r: map<string, bool>)
    ensures r.Keys == combined.Keys + report.Keys
    ensures forall k :: k in r ==> (r[k] <==> Flag(combined, k) || Flag(report, k))
  {
    map k | k in combined.Keys + report.Keys :: Flag(combined, k) || Flag(report, k)
  }

  function MergeAll(reports: seq<map<string, bool>>): map<string, bool> {
    if reports == [] then map[] else Merge(MergeAll(reports[..|reports| - 1]), reports[|reports| - 1])
  }

  /** The merged report holds every key any file reported, true iff some file reported it true. */
  lemma {:induction false} MergeAllSpec(reports: seq<map<string, bool>>)
    ensures forall k :: k in MergeAll(reports) <==> exists i :: 0 <= i < |reports| && k in reports[i]
    ensures forall k :: Flag(MergeAll(reports), k) <==> exists i :: 0 <= i < |reports| && Flag(reports[i], k)
  {
    if reports != [] {
      var n := |reports| - 1;
      MergeAllSpec(reports[..n]);
      forall k ensures k in MergeAll(reports) <==> exists i :: 0 <= i < |reports| && k in reports[i] {
        if k in MergeAll(reports[..n]) {
          var i :| 0 <= i < n && k in reports[..n][i];
          assert k in reports[i];
        }
        if i :| 0 <= i < |reports| && k in reports[i] {
          if i < n {
            assert k in reports[..n][i];
          }
        }
      }
      forall k ensures Flag(MergeAll(reports), k) <==> exists i :: 0 <= i < |reports| && Flag(reports[i], k) {
        if Flag(MergeAll(reports[..n]), k) {
          var i :| 0 <= i < n && Flag(reports[..n][i], k);
          assert Flag(reports[i], k);
        }
        if i :| 0 <= i < |reports| && Flag(reports[i], k) {
          if i < n {
            assert Flag(reports[..n][i], k);
          }
        }
      }
    }
  }

  /** Databases and per-file reports after repairing `paths` in order, starting from `dbs`. */
  function RepairPaths(dbs: map<string, Schema>, paths: seq<string>): (map<string, Schema>, seq<map<string, bool>>)
  {
    if paths == [] then (dbs, [])
    else
      var (before, reports) := RepairPaths(dbs, paths[..|paths| - 1]);
      var path := paths[|paths| - 1];
      if path in before then (before[path := Repaired(before[path])], reports + [Report(before[path])])
      else (before, reports + [map[]])
  }

  /** Repairing one more path repairs the prefix first, then that path. */
  lemma RepairPathsSnoc(dbs: map<string, Schema>, prefix: seq<string>, path: string)
    ensures RepairPaths(dbs, prefix + [path]) ==
      var (before, reports) := RepairPaths(dbs, prefix);
      if path in before then (before[path := Repaired(before[path])], reports + [Report(before[path])])
      else (before, reports + [map[]])
  {
    assert (prefix + [path])[..|prefix|] == prefix;
  }

  /** With no path repeated, every file is repaired once from its original schema. */
  lemma {:induction false} RepairPathsDistinct(dbs: map<string, Schema>, paths: seq<string>)
    requires Distinct(paths)
    ensures var (after, reports) := RepairPaths(dbs, paths);
      && after.Keys == dbs.Keys
      && (forall p :: p in dbs ==> after[p] == if p in paths then Repaired(dbs[p]) else dbs[p])
      && |reports| == |paths|
      && (forall i :: 0 <= i < |paths| ==> reports[i] == if paths[i] in dbs then Report(dbs[paths[i]]) else map[])
  {
    if paths != [] {
      var n := |paths| - 1;
      var prefix, last := paths[..n], paths[n];
      assert paths == prefix + [last];
      assert Distinct(prefix);
      RepairPathsDistinct(dbs, prefix);
      RepairPathsSnoc(dbs, prefix, last);
      assert last !in prefix;
      assert forall p :: p in paths <==> p in prefix || p == last;
    }
  }

  /** The `pair` report read off the three successive column checks. */
  lemma PairReportSteps(s0: Schema)
    requires "pair" in s0
    ensures var a := AddColumn(s0, "pair", MyAvatar);
      var b := AddColumn(a, "pair", MyMbtiSource);
      PairReport(s0) == map[AvatarKey := MyAvatar.name !in GetColumns(s0, "pair"),
                            SourceKey := MyMbtiSource.name !in GetColumns(a, "pair"),
                            PublicKey := ShowPublic.name !in GetColumns(b, "pair")]
  {
    KeysDistinct();
  }

  lemma UpdateTwice<K, V>(m: map<K, V>, k: K, v1: V, v2: V)
    ensures m[k := v1][k := v2] == m[k := v2]
  {
  }

  /** A store of SQLite database files, by resolved path. */
  class Disk {
    var databases: map<string, Schema>

    constructor(databases: map<string, Schema>)
      ensures this.databases == databases
    {
      this.databases := databases;
    }

    /** `_maybe_add_column` on the file at `path`; the table must exist for `ALTER TABLE` to succeed. */
    method MaybeAddColumn(path: string, table: string, column: Column) returns (added: bool)
      requires path in databases && table in databases[path]
      modifies this
      ensures added <==> column.name !in GetColumns(old(databases[path]), table)
      ensures databases == old(databases)[path := AddColumn(old(databases[path]), table, column)]
    {
      var cols := GetColumns(databases[path], table);
      if column.name in cols {
        assert AddColumn(databases[path], table, column) == databases[path];
        assert databases[path := databases[path]] == databases;
        return false;
      }
      databases := databases[path := databases[path][table := databases[path][table] + [column]]];
      return true;
    }

    /** `repair_sqlite_file`: a missing file yields an empty report and is not created. */
    method RepairFile(path: string) returns (changed: map<string, bool>)
      modifies this
      ensures path !in old(databases) ==> changed == map[] && databases == old(databases)
      ensures path in old(databases) ==>
        changed == Report(old(databases[path])) && databases == old(databases)[path := Repaired(old(databases[path]))]
    {
      if path !in databases {
        return map[];
      }
      ghost var s0 := databases[path];
      changed := AddSessionsColumn(path);
      assert PairReport(databases[path]) == PairReport(s0);
      var pair := AddPairColumns(path);
      changed := changed + pair;
    }

    /** The `sessions` step of `repair_sqlite_file`. */
    method AddSessionsColumn(path: string) returns (changed: map<string, bool>)
      requires path in databases
      modifies this
      ensures changed == SessionsReport(old(databases[path]))
      ensures databases == old(databases)[path := RepairSessions(old(databases[path]))]
    {
      changed := map[];
      if "sessions" in databases[path] {
        var added := MaybeAddColumn(path, "sessions", OwnerTokenHash);
        changed := changed[SessionsKey := added];
      }
    }

    /** The `pair` step of `repair_sqlite_file`. */
    method AddPairColumns(path: string) returns (changed: map<string, bool>)
      requires path in databases
      modifies this
      ensures changed == PairReport(old(databases[path]))
      ensures databases == old(databases)[path := RepairPair(old(databases[path]))]
    {
      changed := map[];
      if "pair" in databases[path] {
        ghost var before := databases;
        ghost var s0 := databases[path];
        ghost var a := AddColumn(s0, "pair", MyAvatar);
        ghost var b := AddColumn(a, "pair", MyMbtiSource);
        PairReportSteps(s0);
        var avatar := MaybeAddColumn(path, "pair", MyAvatar);
        var source := MaybeAddColumn(path, "pair", MyMbtiSource);
        UpdateTwice(before, path, a, b);
        var public := MaybeAddColumn(path, "pair", ShowPublic);
        UpdateTwice(before, path, b, AddColumn(b, "pair", ShowPublic));
        changed := map[AvatarKey := avatar, SourceKey := source, PublicKey := public];
      }
    }

    /** `repair_sqlite_schema_for_url`: repairs every candidate file and OR-merges their reports. */
    method RepairForUrl(url: string, cwd: string, resolve: string -> string) returns (combined: map<string, bool>)
      modifies this
      ensures RawPath(url).None? || RawPath(url).value == [] ==> combined == map[] && databases == old(databases)
      ensures RawPath(url).Some? && RawPath(url).value != [] ==>
        var paths := if IsAbsolute(RawPath(url).value) then [RawPath(url).value]
                     else Dedupe(MapResolve(Candidates(RawPath(url).value, cwd), resolve));
        var (after, reports) := RepairPaths(old(databases), paths);
        databases == after && combined == MergeAll(reports)
    {
      var raw := RawPath(url);
      if raw.None? || raw.value == [] {
        return map[];
      }
      var paths := CandidatePaths(raw.value, cwd, resolve);
      combined := RepairAll(paths);
    }

    /** The loop of `repair_sqlite_for_url`: repair each path in turn and merge the reports. */
    method RepairAll(paths: seq<string>) returns (combined: map<string, bool>)
      modifies this
      ensures databases == RepairPaths(old(databases), paths).0
      ensures combined == MergeAll(RepairPaths(old(databases), paths).1)
    {
      combined := map[];
      ghost var reports: seq<map<string, bool>> := [];
      for i := 0 to |paths|
        invariant (databases, reports) == RepairPaths(old(databases), paths[..i])
        invariant combined == MergeAll(reports)
      {
        assert paths[..i + 1] == paths[..i] + [paths[i]];
        RepairPathsSnoc(old(databases), paths[..i], paths[i]);
        var changed := RepairFile(paths[i]);
        assert (reports + [changed])[..|reports|] == reports;
        reports := reports + [changed];
        combined := MergeInto(combined, changed);
      }
      assert paths[..|paths|] == paths;
    }
  }

  /** The inner loop of the merge, one key of `report` at a time. */
  method MergeInto(combined: map<string, bool>, report: map<string, bool>) returns (r: map<string, bool>)
    ensures r == Merge(combined, report)
  {
    r := combined;
    var remaining := report.Keys;
    while remaining != {}
      invariant remaining <= report.Keys
      invariant r.Keys == combined.Keys + (report.Keys - remaining)
      invariant forall k :: k in r ==> (r[k] <==> Flag(combined, k) || (k !in remaining && Flag(report, k)))
      decreases remaining
    {
      var key :| key in remaining;
      r := r[key := Flag(r, key) || report[key]];
      remaining := remaining - {key};
    }
  }
}

=== FILE: Scoring.dfy ===
/**
 * Type resolution (`_score_answers` in app/main.py): each dimension's
 * normalised axis value in [-1, 1] becomes a 0..100 score for the
 * dimension's primary pole, the secondary pole gets the rest, and the
 * winning letters, one per dimension, spell the type.
 *
 * The normaliser that produces the axis values is not part of this model:
 * its output, a map from dimension name to axis value, is an input here.
 * Floats are modelled as reals.
 */
module Scoring {
  import opened Wrappers

  /** Python's `round()` on a real: the nearest integer, ties to the even one. */
  function RoundHalfEven(x: real): (r: int)
    ensures x - 0.5 <= r as real <= x + 0.5
    ensures r as real == x - 0.5 || r as real == x + 0.5 ==> r % 2 == 0
  {
    var f := x.Floor;
    var frac := x - f as real;
    if frac < 0.5 then f
    else if frac > 0.5 then f + 1
    else if f % 2 == 0 then f
    else f + 1
  }

  /** `_DIMENSION_LETTERS`: the primary and secondary pole letter of each dimension. */
  function DimensionLetters(dim: string): Option<(char, char)> {
    if dim == "EI" then Some(('E', 'I'))
    else if dim == "SN" then Some(('S', 'N'))
    else if dim == "TF" then Some(('T', 'F'))
    else if dim == "JP" then Some(('J', 'P'))
    else None
  }

  /** The primary-pole score of an axis value: `max(0, min(100, round((a + 1) * 50)))`. */
  function PrimaryScore(axis: real): (r: int)
    ensures 0 <= r <= 100
    ensures -1.0 <= axis <= 1.0 ==> r == RoundHalfEven((axis + 1.0) * 50.0)
  {
    var rounded := RoundHalfEven((axis + 1.0) * 50.0);
    if rounded < 0 then 0 else if rounded > 100 then 100 else rounded
  }

  datatype ScoreError = NoAnswers | MissingAxis(dim: string)

  /** The type label and the per-letter scores. */
  datatype TypeScores = TypeScores(mbtiType: string, scores: map<char, int>)

  /**
   * What the loop of `_score_answers` computes after visiting `dims`:
   * dimensions without a letter pair are skipped, the first handled
   * dimension missing from `norms` is a `KeyError`.
   */
  function ScoreSpec(dims: seq<string>, norms: map<string, real>): (r: Result<TypeScores, ScoreError>)
    ensures r.Err? ==> r.error.MissingAxis? && r.error.dim in dims && r.error.dim !in norms
    ensures r.Ok? ==> |r.value.mbtiType| <= |dims|
    decreases |dims|
  {
    if dims == [] then Ok(TypeScores([], map[]))
    else
      var d := dims[|dims| - 1];
      match ScoreSpec(dims[..|dims| - 1], norms)
      case Err(e) => Err(e)
      case Ok(acc) =>
        match DimensionLetters(d)
        case None => Ok(acc)
        case Some(poles) =>
          if d !in norms then Err(MissingAxis(d))
          else
            var primary := PrimaryScore(norms[d]);
            var secondary := 100 - primary;
            var letter := if primary >= secondary then poles.0 else poles.1;
            Ok(TypeScores(acc.mbtiType + [letter], acc.scores[poles.0 := primary][poles.1 := secondary]))
  }

  /**
   * `_score_answers`: an empty answer list is a `ValueError`; otherwise the
   * label and scores are those of the dimension loop.
   */
  method ScoreAnswers(answers: seq<(int, int)>, dims: seq<string>, norms: map<string, real>)
    returns (r: Result<TypeScores, ScoreError>)
    ensures answers == [] ==> r == Err(NoAnswers)
    ensures answers != [] ==> r == ScoreSpec(dims, norms)
  {
    if |answers| == 0 {
      return Err(NoAnswers);
    }
    var scores: map<char, int> := map[];
    var letters: string := [];
    var i := 0;
    while i < |dims|
      invariant 0 <= i <= |dims|
      invariant ScoreSpec(dims[..i], norms) == Ok(TypeScores(letters, scores))
    {
      var dim := dims[i];
      assert dims[..i + 1][..i] == dims[..i];
      var letterPair := DimensionLetters(dim);
      if letterPair.Some? {
        if dim !in norms {
          ErrorPersists(dims, i + 1, norms);
          return Err(MissingAxis(dim));
        }
        var axisValue := norms[dim];
        var (primary, secondary) := letterPair.value;
        var primaryScore := PrimaryScore(axisValue);
        var secondaryScore := 100 - primaryScore;
        scores := scores[primary := primaryScore];
        scores := scores[secondary := secondaryScore];
        letters := letters + [if primaryScore >= secondaryScore then primary else secondary];
      }
      i := i + 1;
    }
    assert dims[..i] == dims;
    r := Ok(TypeScores(letters, scores));
  }

  /** Once a prefix of the dimensions fails, the whole list fails the same way. */
  lemma {:induction false} ErrorPersists(dims: seq<string>, k: nat, norms: map<string, real>)
    requires k <= |dims|
    requires ScoreSpec(dims[..k], norms).Err?
    ensures ScoreSpec(dims, norms) == ScoreSpec(dims[..k], norms)
    decreases |dims|
  {
    if k < |dims| {
      assert dims[..|dims| - 1][..k] == dims[..k];
      ErrorPersists(dims[..|dims| - 1], k, norms);
    } else {
      assert dims[..k] == dims;
    }
  }

  /** The dimensions that have a letter pair, in order. */
  function Handled(dims: seq<string>): (h: seq<string>)
    ensures forall d :: d in h <==> d in dims && DimensionLetters(d).Some?
  {
    if dims == [] then []
    else
      var rest := Handled(dims[..|dims| - 1]);
      assert dims == dims[..|dims| - 1] + [dims[|dims| - 1]];
      if DimensionLetters(dims[|dims| - 1]).Some? then rest + [dims[|dims| - 1]] else rest
  }

  /** Every handled dimension has an axis value. */
  ghost predicate AxesPresent(dims: seq<string>, norms: map<string, real>) {
    forall d :: d in dims && DimensionLetters(d).Some? ==> d in norms
  }

  /** Scoring fails exactly when a handled dimension has no axis value. */
  lemma {:induction false} ScoreOkIffAxesPresent(dims: seq<string>, norms: map<string, real>)
    ensures ScoreSpec(dims, norms).Ok? <==> AxesPresent(dims, norms)
    decreases |dims|
  {
    if dims != [] {
      var init := dims[..|dims| - 1];
      assert dims == init + [dims[|dims| - 1]];
      ScoreOkIffAxesPresent(init, norms);
    }
  }

  /**
   * The label has one letter per handled dimension, in order; each is one of
   * that dimension's two poles, and it is the primary pole exactly when the
   * primary score is at least 50 (the tie goes to the primary pole).
   */
  lemma {:induction false} LabelLetters(dims: seq<string>, norms: map<string, real>)
    requires ScoreSpec(dims, norms).Ok?
    ensures var word := ScoreSpec(dims, norms).value.mbtiType;
      var h := Handled(dims);
      && |word| == |h|
      && forall i :: 0 <= i < |h| ==>
           h[i] in norms &&
           (word[i] == DimensionLetters(h[i]).value.0 || word[i] == DimensionLetters(h[i]).value.1) &&
           (word[i] == DimensionLetters(h[i]).value.0 <==> PrimaryScore(norms[h[i]]) >= 50)
    decreases |dims|
  {
    if dims != [] {
      LabelLetters(dims[..|dims| - 1], norms);
    }
  }

  /**
   * For every handled dimension the primary pole's score is the primary
   * score of its axis, in [0, 100], and the two poles' scores add up to 100.
   */
  lemma {:induction false} ScoresComplementary(dims: seq<string>, norms: map<string, real>)
    requires ScoreSpec(dims, norms).Ok?
    ensures var scores := ScoreSpec(dims, norms).value.scores;
      forall d :: d in dims && DimensionLetters(d).Some? ==>
        var (p, s) := DimensionLetters(d).value;
        d in norms && p in scores && s in scores &&
        scores[p] == PrimaryScore(norms[d]) && 0 <= scores[p] <= 100 &&
        scores[p] + scores[s] == 100
    decreases |dims|
  {
    if dims != [] {
      var init := dims[..|dims| - 1];
      var last := dims[|dims| - 1];
      assert dims == init + [last];
      assert ScoreSpec(init, norms).Ok?;
      ScoresComplementary(init, norms);
      var before := ScoreSpec(init, norms).value.scores;
      var scores := ScoreSpec(dims, norms).value.scores;
      if DimensionLetters(last).Some? {
        var (p, s) := DimensionLetters(last).value;
        assert scores == before[p := PrimaryScore(norms[last])][s := 100 - PrimaryScore(norms[last])];
        forall d | d in dims && DimensionLetters(d).Some? && d != last
          ensures var (p', s') := DimensionLetters(d).value;
            scores[p'] == before[p'] && scores[s'] == before[s']
        {
          assert d in init;
          PolesDisjoint(d, last);
        }
      } else {
        assert scores == before;
      }
    }
  }

  /** Two different dimensions share no pole letter. */
  lemma PolesDisjoint(d: string, e: string)
    requires DimensionLetters(d).Some? && DimensionLetters(e).Some? && d != e
    ensures var (p, s) := DimensionLetters(d).value;
      var (q, t) := DimensionLetters(e).value;
      p != q && p != t && s != q && s != t
  {
  }

  /** The letters that get a score are exactly the poles of the handled dimensions. */
  lemma {:induction false} ScoreKeys(dims: seq<string>, norms: map<string, real>)
    requires ScoreSpec(dims, norms).Ok?
    ensures forall c :: c in ScoreSpec(dims, norms).value.scores <==>
      exists d :: d in dims && DimensionLetters(d).Some? &&
        (c == DimensionLetters(d).value.0 || c == DimensionLetters(d).value.1)
    decreases |dims|
  {
    if dims != [] {
      var init := dims[..|dims| - 1];
      assert dims == init + [dims[|dims| - 1]];
      ScoreKeys(init, norms);
    }
  }

  /**
   * The primary pole wins exactly when the axis value is at least -0.01:
   * `(a + 1) * 50` then rounds to 50 or more (49.5 rounds to the even 50).
   * In particular the neutral axis 0 ties and goes to the primary pole.
   */
  lemma PrimaryWinsIff(axis: real)
    ensures PrimaryScore(axis) >= 50 <==> axis >= -0.01
  {
    var x := (axis + 1.0) * 50.0;
    if axis >= -0.01 {
      assert x >= 49.5;
    } else {
      assert x < 49.5;
    }
  }

  /** One more handled dimension with an axis value appends its winning letter and sets its two scores. */
  lemma ScoreSnoc(dims: seq<string>, d: string, norms: map<string, real>, acc: TypeScores, p: char, s: char)
    requires ScoreSpec(dims, norms) == Ok(acc)
    requires DimensionLetters(d) == Some((p, s)) && d in norms
    ensures ScoreSpec(dims + [d], norms)
      == Ok(TypeScores(acc.mbtiType + [if PrimaryScore(norms[d]) >= 50 then p else s],
                       acc.scores[p := PrimaryScore(norms[d])][s := 100 - PrimaryScore(norms[d])]))
  {
    assert (dims + [d])[..|dims|] == dims;
  }

  /** With the four standard dimensions all neutral the type is ESTJ, 50 to each letter. */
  lemma NeutralAxesGiveEstj(norms: map<string, real>)
    requires "EI" in norms && "SN" in norms && "TF" in norms && "JP" in norms
    requires norms["EI"] == 0.0 && norms["SN"] == 0.0 && norms["TF"] == 0.0 && norms["JP"] == 0.0
    ensures ScoreSpec(["EI", "SN", "TF", "JP"], norms)
      == Ok(TypeScores("ESTJ", map['E' := 50, 'I' := 50, 'S' := 50, 'N' := 50, 'T' := 50, 'F' := 50, 'J' := 50, 'P' := 50]))
  {
    assert PrimaryScore(0.0) == 50;
    var m1 := map['E' := 50, 'I' := 50];
    var m2 := m1['S' := 50]['N' := 50];
    var m3 := m2['T' := 50]['F' := 50];
    ScoreSnoc([], "EI", norms, TypeScores([], map[]), 'E', 'I');
    assert [] + ["EI"] == ["EI"] && map[]['E' := 50]['I' := 50] == m1;
    assert DimensionLetters("SN") == Some(('S', 'N')) && DimensionLetters("TF") == Some(('T', 'F'));
    assert DimensionLetters("JP") == Some(('J', 'P'));
    assert "" + ['E'] == "E" && "E" + ['S'] == "ES" && "ES" + ['T'] == "EST" && "EST" + ['J'] == "ESTJ";
    ScoreSnoc(["EI"], "SN", norms, TypeScores("E", m1), 'S', 'N');
    assert ["EI"] + ["SN"] == ["EI", "SN"];
    ScoreSnoc(["EI", "SN"], "TF", norms, TypeScores("ES", m2), 'T', 'F');
    assert ["EI", "SN"] + ["TF"] == ["EI", "SN", "TF"];
    ScoreSnoc(["EI", "SN", "TF"], "JP", norms, TypeScores("EST", m3), 'J', 'P');
    assert ["EI", "SN", "TF"] + ["JP"] == ["EI", "SN", "TF", "JP"];
  }
}

=== FILE: Sorting.dfy ===
/**
 * Stable sorting by a total preorder, used for the two `ORDER BY`-style
 * sorts of the model: questions by id, report rows by relation. Also the
 * lexicographic order of strings, which is what sorting by a string column
 * means.
 */
module Sorting {

  /** `leq` compares every pair and is transitive. */
  ghost predicate TotalPreorder<T(!new)>(leq: (T, T) -> bool) {
    && (forall a, b :: leq(a, b) || leq(b, a))
    && (forall a, b, c :: leq(a, b) && leq(b, c) ==> leq(a, c))
  }

  predicate SortedBy<T>(leq: (T, T) -> bool, s: seq<T>) {
    forall i, j :: 0 <= i < j < |s| ==> leq(s[i], s[j])
  }

  /** Inserts `x` before the first element it does not follow. */
  function InsertSorted<T(!new)>(leq: (T, T) -> bool, x: T, s: seq<T>): (r: seq<T>)
    requires TotalPreorder(leq) && SortedBy(leq, s)
    ensures SortedBy(leq, r)
    ensures multiset(r) == multiset(s) + multiset{x}
  {
    if s == [] then [x]
    else if leq(x, s[0]) then [x] + s
    else
      var rest := InsertSorted(leq, x, s[1..]);
      assert s == [s[0]] + s[1..];
      assert forall k :: 0 <= k < |rest| ==> leq(s[0], rest[k]) by {
        forall k | 0 <= k < |rest| ensures leq(s[0], rest[k]) {
          assert rest[k] in multiset(rest);
          assert rest[k] == x || rest[k] in multiset(s[1..]);
          if rest[k] != x {
            var j :| 0 <= j < |s[1..]| && s[1..][j] == rest[k];
            assert s[j + 1] == rest[k];
          }
        }
      }
      [s[0]] + rest
  }

  /** `sorted(s, key=...)`: an insertion sort, stable because each element goes before its equals. */
  function SortBy<T(!new)>(leq: (T, T) -> bool, s: seq<T>): (r: seq<T>)
    requires TotalPreorder(leq)
    ensures SortedBy(leq, r)
    ensures multiset(r) == multiset(s)
    ensures |r| == |s|
  {
    if s == [] then []
    else
      assert s == [s[0]] + s[1..];
      var r := InsertSorted(leq, s[0], SortBy(leq, s[1..]));
      assert |r| == |multiset(r)|;
      r
  }

  /** The elements of `s` that `leq` ranks equal to `e`, in their order in `s`. */
  function Equivalents<T>(leq: (T, T) -> bool, e: T, s: seq<T>): seq<T> {
    if s == [] then []
    else (if leq(e, s[0]) && leq(s[0], e) then [s[0]] else []) + Equivalents(leq, e, s[1..])
  }

  /** Inserting `x` puts it before every element ranked equal to it. */
  lemma {:induction false} InsertBeforeEquals<T(!new)>(leq: (T, T) -> bool, x: T, s: seq<T>, e: T)
    requires TotalPreorder(leq) && SortedBy(leq, s)
    ensures Equivalents(leq, e, InsertSorted(leq, x, s))
      == (if leq(e, x) && leq(x, e) then [x] else []) + Equivalents(leq, e, s)
    decreases |s|
  {
    var r := InsertSorted(leq, x, s);
    var ex: seq<T> := if leq(e, x) && leq(x, e) then [x] else [];
    if s == [] {
      assert r == [x] && r[1..] == [];
    } else if leq(x, s[0]) {
      assert r == [x] + s && r[1..] == s;
    } else {
      var tail := s[1..];
      assert SortedBy(leq, tail) by {
        forall i, j | 0 <= i < j < |tail| ensures leq(tail[i], tail[j]) {
          assert tail[i] == s[i + 1] && tail[j] == s[j + 1];
        }
      }
      var rest := InsertSorted(leq, x, tail);
      assert r == [s[0]] + rest && r[1..] == rest;
      InsertBeforeEquals(leq, x, tail, e);
      var es: seq<T> := if leq(e, s[0]) && leq(s[0], e) then [s[0]] else [];
      assert Equivalents(leq, e, r) == es + (ex + Equivalents(leq, e, tail));
      assert Equivalents(leq, e, s) == es + Equivalents(leq, e, tail);
      if ex == [] {
        assert ex + Equivalents(leq, e, s) == Equivalents(leq, e, s);
        assert ex + Equivalents(leq, e, tail) == Equivalents(leq, e, tail);
      } else if es == [] {
        assert es + (ex + Equivalents(leq, e, tail)) == ex + Equivalents(leq, e, tail);
        assert es + Equivalents(leq, e, tail) == Equivalents(leq, e, tail);
      } else {
        assert false;
      }
    }
  }

  /** Stability: elements ranked equal keep their relative order. */
  lemma {:induction false} SortByStable<T(!new)>(leq: (T, T) -> bool, s: seq<T>, e: T)
    requires TotalPreorder(leq)
    ensures Equivalents(leq, e, SortBy(leq, s)) == Equivalents(leq, e, s)
    decreases |s|
  {
    if s != [] {
      SortByStable(leq, s[1..], e);
      InsertBeforeEquals(leq, s[0], SortBy(leq, s[1..]), e);
    }
  }

  /** No two elements of `s` share a key. */
  predicate UniqueBy<T, K(==)>(key: T -> K, s: seq<T>) {
    forall i, j :: 0 <= i < j < |s| ==> key(s[i]) != key(s[j])
  }

  lemma {:induction false} InsertKeepsUnique<T(!new), K>(leq: (T, T) -> bool, key: T -> K, x: T, s: seq<T>)
    requires TotalPreorder(leq) && SortedBy(leq, s) && UniqueBy(key, s)
    requires forall k :: 0 <= k < |s| ==> key(s[k]) != key(x)
    ensures UniqueBy(key, InsertSorted(leq, x, s))
    decreases |s|
  {
    if s != [] && !leq(x, s[0]) {
      assert s == [s[0]] + s[1..];
      InsertKeepsUnique(leq, key, x, s[1..]);
      var rest := InsertSorted(leq, x, s[1..]);
      forall k | 0 <= k < |rest| ensures key(rest[k]) != key(s[0]) {
        assert rest[k] in multiset(rest);
        if rest[k] != x {
          assert rest[k] in multiset(s[1..]);
          var j :| 0 <= j < |s[1..]| && s[1..][j] == rest[k];
          assert s[j + 1] == rest[k];
        }
      }
    }
  }

  /** Sorting keeps keys unique: it only rearranges. */
  lemma {:induction false} SortByKeepsUnique<T(!new), K>(leq: (T, T) -> bool, key: T -> K, s: seq<T>)
    requires TotalPreorder(leq) && UniqueBy(key, s)
    ensures UniqueBy(key, SortBy(leq, s))
    decreases |s|
  {
    if s != [] {
      assert s == [s[0]] + s[1..];
      assert UniqueBy(key, s[1..]);
      SortByKeepsUnique(leq, key, s[1..]);
      var t := SortBy(leq, s[1..]);
      forall k | 0 <= k < |t| ensures key(t[k]) != key(s[0]) {
        assert t[k] in multiset(t);
        assert t[k] in multiset(s[1..]);
        var j :| 0 <= j < |s[1..]| && s[1..][j] == t[k];
        assert s[j + 1] == t[k];
      }
      InsertKeepsUnique(leq, key, s[0], t);
    }
  }

  /** `a <= b` on strings: lexicographic by character code, a prefix first. */
  predicate StringLeq(a: string, b: string)
    decreases |a|
  {
    a == [] || (b != [] && (a[0] < b[0] || (a[0] == b[0] && StringLeq(a[1..], b[1..]))))
  }

  lemma {:induction false} StringLeqTotal(a: string, b: string)
    ensures StringLeq(a, b) || StringLeq(b, a)
    decreases |a|
  {
    if a != [] && b != [] && a[0] == b[0] {
      StringLeqTotal(a[1..], b[1..]);
    }
  }

  lemma {:induction false} StringLeqTransitive(a: string, b: string, c: string)
    requires StringLeq(a, b) && StringLeq(b, c)
    ensures StringLeq(a, c)
    decreases |a|
  {
    if a != [] && b != [] && c != [] && a[0] == b[0] && b[0] == c[0] {
      StringLeqTransitive(a[1..], b[1..], c[1..]);
    }
  }

  /** String comparison is a total preorder, so sorting by a string key is well defined. */
  lemma StringLeqIsTotalPreorder()
    ensures TotalPreorder(StringLeq)
  {
    forall a, b ensures StringLeq(a, b) || StringLeq(b, a) {
      StringLeqTotal(a, b);
    }
    forall a, b, c | StringLeq(a, b) && StringLeq(b, c) ensures StringLeq(a, c) {
      StringLeqTransitive(a, b, c);
    }
  }
}

=== FILE: Text.dfy ===
/**
 * The handful of Python `str` operations the modelled code relies on,
 * written over `seq<char>`: prefix and suffix tests, substring search,
 * `strip()`, `lower()`, `split(sep)[0]`, `partition(sep)` and `int()`.
 * Whitespace is the ten ASCII characters `str.strip()` removes, and case
 * folding covers ASCII letters only.
 */
module Text {
  import opened Wrappers

  predicate StartsWith(s: string, prefix: string) {
    |prefix| <= |s| && s[..|prefix|] == prefix
  }

  predicate EndsWith(s: string, suffix: string) {
    |suffix| <= |s| && s[|s| - |suffix|..] == suffix
  }

  /** `needle in s`: the needle occurs at some position of `s`. */
  predicate Contains(s: string, needle: string)
    decreases |s|
  {
    StartsWith(s, needle) || (|s| > 0 && Contains(s[1..], needle))
  }

  lemma {:induction false} ContainsAt(s: string, needle: string, i: nat)
    requires i + |needle| <= |s| && s[i..i + |needle|] == needle
    ensures Contains(s, needle)
  {
    if i > 0 {
      assert s[1..][i - 1..i - 1 + |needle|] == s[i..i + |needle|];
      ContainsAt(s[1..], needle, i - 1);
    }
  }

  /** A one-character needle occurs iff that character is an element. */
  lemma {:induction false} ContainsChar(s: string, c: char)
    ensures Contains(s, [c]) <==> c in s
  {
    if |s| > 0 {
      ContainsChar(s[1..], c);
      assert s == [s[0]] + s[1..];
    }
  }

  predicate IsSpace(c: char) {
    c == ' ' || c == '\t' || c == '\n' || c == '\r' || c == '\U{B}' || c == '\U{C}'
    || ('\U{1C}' <= c <= '\U{1F}')
  }

  function StripLeft(s: string): (r: string)
    ensures |r| <= |s| && (r == [] || !IsSpace(r[0]))
    ensures r == s[|s| - |r|..]
  {
    if |s| > 0 && IsSpace(s[0]) then StripLeft(s[1..]) else s
  }

  function StripRight(s: string): (r: string)
    ensures |r| <= |s| && (r == [] || !IsSpace(r[|r| - 1]))
    ensures r == s[..|r|]
  {
    if |s| > 0 && IsSpace(s[|s| - 1]) then StripRight(s[..|s| - 1]) else s
  }

  /** `s.strip()`: drops leading and trailing whitespace. */
  function Strip(s: string): (r: string)
    ensures r == [] || (!IsSpace(r[0]) && !IsSpace(r[|r| - 1]))
  {
    StripRight(StripLeft(s))
  }

  /** Only whitespace. */
  predicate AllSpace(s: string) {
    forall k :: 0 <= k < |s| ==> IsSpace(s[k])
  }

  lemma {:induction false} StripLeftDropsSpace(s: string)
    ensures AllSpace(s[..|s| - |StripLeft(s)|])
  {
    if |s| > 0 && IsSpace(s[0]) {
      StripLeftDropsSpace(s[1..]);
      var n := |s| - |StripLeft(s)|;
      assert s[..n] == [s[0]] + s[1..][..n - 1];
    }
  }

  lemma {:induction false} StripRightDropsSpace(s: string)
    ensures AllSpace(s[|StripRight(s)|..])
  {
    if |s| > 0 && IsSpace(s[|s| - 1]) {
      var init := s[..|s| - 1];
      StripRightDropsSpace(init);
      var n := |StripRight(s)|;
      assert s[n..] == init[n..] + [s[|s| - 1]];
    }
  }

  /**
   * What `strip()` removes is exactly the whitespace around the text: the
   * result is the infix of `s` between a whitespace-only prefix and a
   * whitespace-only suffix, and it neither starts nor ends with whitespace.
   */
  lemma StripRemovesOuterSpace(s: string)
    ensures var r := Strip(s);
      exists i, j :: 0 <= i <= j <= |s| && r == s[i..j] && AllSpace(s[..i]) && AllSpace(s[j..])
  {
    var left := StripLeft(s);
    var i := |s| - |left|;
    var r := StripRight(left);
    var j := i + |r|;
    StripLeftDropsSpace(s);
    StripRightDropsSpace(left);
    assert r == s[i..j];
    assert s[j..] == left[|r|..];
  }

  function LowerChar(c: char): char {
    if 'A' <= c <= 'Z' then (c as int - 'A' as int + 'a' as int) as char else c
  }

  /** `s.lower()` on ASCII letters. */
  function Lower(s: string): (r: string)
    ensures |r| == |s|
    ensures forall i :: 0 <= i < |s| ==> r[i] == LowerChar(s[i])
  {
    if s == [] then [] else [LowerChar(s[0])] + Lower(s[1..])
  }

  /** `s.split(sep)[0]`: everything before the first separator. */
  function FirstField(s: string, sep: char): (r: string)
    ensures sep !in r
    ensures StartsWith(s, r)
    ensures |r| < |s| ==> s[|r|] == sep
  {
    if s == [] || s[0] == sep then [] else [s[0]] + FirstField(s[1..], sep)
  }

  /** `s.partition(sep)`: the text before the first separator and the text after it. */
  function Partition(s: string, sep: char): (r: (string, string))
    ensures sep !in r.0
    ensures sep in s ==> s == r.0 + [sep] + r.1
    ensures sep !in s ==> r.0 == s && r.1 == []
  {
    var head := FirstField(s, sep);
    if |head| < |s| then (head, s[|head| + 1..]) else (s, [])
  }

  predicate IsDigit(c: char) { '0' <= c <= '9' }

  function DigitValue(c: char): nat requires IsDigit(c) { c as int - '0' as int }

  /** The value of a run of decimal digits, most significant first. */
  function DigitsValue(s: string): nat
    requires forall i :: 0 <= i < |s| ==> IsDigit(s[i])
  {
    if s == [] then 0 else DigitsValue(s[..|s| - 1]) * 10 + DigitValue(s[|s| - 1])
  }

  /** The decimal rendering of a natural number, without leading zeros. */
  function ShowNat(n: nat): (r: string)
    ensures |r| > 0 && forall i :: 0 <= i < |r| ==> IsDigit(r[i])
  {
    if n < 10 then [('0' as int + n) as char] else ShowNat(n / 10) + [('0' as int + n % 10) as char]
  }

  /** Reading back a rendered number gives the number. */
  lemma {:induction false} DigitsValueShowNat(n: nat)
    ensures DigitsValue(ShowNat(n)) == n
  {
    var r := ShowNat(n);
    if n >= 10 {
      assert r[..|r| - 1] == ShowNat(n / 10);
      DigitsValueShowNat(n / 10);
    }
  }

  /**
   * `int(s)` on a decimal literal: surrounding whitespace, an optional sign
   * and at least one digit; anything else is the `ValueError` case, `None`.
   */
  function ParseInt(s: string): (r: Option<int>)
    ensures Strip(s) == [] ==> r.None?
    ensures r.Some? ==> IsDigit(Strip(s)[0]) || Strip(s)[0] == '-' || Strip(s)[0] == '+'
    ensures r.Some? ==> forall i :: 1 <= i < |Strip(s)| ==> IsDigit(Strip(s)[i])
    ensures r.Some? ==> IsDigit(Strip(s)[|Strip(s)| - 1])
    ensures r.Some? && r.value < 0 ==> Strip(s)[0] == '-'
  {
    var t := Strip(s);
    var sign := if |t| > 0 && (t[0] == '-' || t[0] == '+') then t[..1] else [];
    var digits := t[|sign|..];
    if digits != [] && forall i :: 0 <= i < |digits| ==> IsDigit(digits[i]) then
      Some(if sign == "-" then 0 - DigitsValue(digits) as int else DigitsValue(digits))
    else
      None
  }

  /** `int(str(n))` is `n` for every natural number. */
  lemma ParseIntShowNat(n: nat)
    ensures ParseInt(ShowNat(n)) == Some(n)
  {
    var s := ShowNat(n);
    StripDigits(s);
    assert s[0] != '-' && s[0] != '+';
    assert s[0..] == s;
    DigitsValueShowNat(n);
  }

  /** A non-empty run of digits has nothing to strip. */
  lemma StripDigits(s: string)
    requires s != [] && forall i :: 0 <= i < |s| ==> IsDigit(s[i])
    ensures Strip(s) == s
  {
    assert !IsSpace(s[0]) && !IsSpace(s[|s| - 1]);
    assert StripLeft(s) == s;
  }
}

=== FILE: TrustedHost.dfy ===
/**
 * The trusted-host middleware of app/main.py
 * (`ProblemDetailsTrustedHostMiddleware`): its constructor checks the
 * wildcard patterns, and for each HTTP or WebSocket request it either lets
 * the request through, redirects it to the `www.` host, or answers with a
 * 400 `invalid-host` problem.
 */
module TrustedHost {
  import opened Wrappers
  import opened Text
  import opened Http

  /** The middleware's settings after construction. */
  datatype Config = Config(allowedHosts: seq<string>, allowAny: bool, wwwRedirect: bool)

  /** The constructor's `AssertionError`: the offending pattern. */
  datatype WildcardError = WildcardError(pattern: string)

  /** A `*` may only appear first, and a leading `*` other than `*` itself must begin `*.`. */
  predicate WildcardOk(pattern: string) {
    && (|pattern| <= 1 || '*' !in pattern[1..])
    && (StartsWith(pattern, "*") && pattern != "*" ==> StartsWith(pattern, "*."))
  }

  function FirstBadPattern(patterns: seq<string>): (r: Option<string>)
    ensures r.None? <==> forall i :: 0 <= i < |patterns| ==> WildcardOk(patterns[i])
    ensures r.Some? ==> r.value in patterns && !WildcardOk(r.value)
  {
    if patterns == [] then None
    else if !WildcardOk(patterns[0]) then Some(patterns[0])
    else FirstBadPattern(patterns[1..])
  }

  /**
   * The constructor: no host list means `["*"]`; a pattern breaking the
   * wildcard rule fails construction; `*` in the list allows any host.
   */
  function NewConfig(allowedHosts: Option<seq<string>>, wwwRedirect: bool): (r: Result<Config, WildcardError>)
    ensures var patterns := if allowedHosts.None? then ["*"] else allowedHosts.value;
      && (r.Ok? <==> forall i :: 0 <= i < |patterns| ==> WildcardOk(patterns[i]))
      && (r.Ok? ==> r.value.allowedHosts == patterns && r.value.wwwRedirect == wwwRedirect
                    && (r.value.allowAny <==> "*" in patterns))
      && (r.Err? ==> r.error.pattern in patterns && !WildcardOk(r.error.pattern))
  {
    var patterns := if allowedHosts.None? then ["*"] else allowedHosts.value;
    match FirstBadPattern(patterns)
    case Some(bad) => Err(WildcardError(bad))
    case None => Ok(Config(patterns, "*" in patterns, wwwRedirect))
  }

  /** Exact match, or a leading-`*` pattern whose remainder ends the host. */
  predicate HostMatches(host: string, pattern: string)
    ensures !StartsWith(pattern, "*") ==> (HostMatches(host, pattern) <==> host == pattern)
  {
    host == pattern || (StartsWith(pattern, "*") && EndsWith(host, pattern[1..]))
  }

  /** What the middleware does with a request. */
  datatype Decision = Forward | Redirect(netloc: string) | Reject(problem: Problem)

  /** The host the middleware checks: the `Host` header up to its first colon, `""` when absent. */
  function RequestHost(hostHeader: Option<string>): string {
    FirstField(if hostHeader.Some? then hostHeader.value else "", ':')
  }

  /**
   * `__call__`: a request of another scope type, or any request when `*` is
   * allowed, goes through; otherwise the host must match a pattern; failing
   * that, a `www.` form of the host among the patterns gives a redirect (when
   * enabled) to the URL with `www.` before its network location, and anything
   * else is a 400 `invalid-host` problem.
   */
  method Dispatch(config: Config, scopeType: string, hostHeader: Option<string>, urlNetloc: string)
    returns (d: Decision)
    ensures config.allowAny || (scopeType != "http" && scopeType != "websocket") ==> d == Forward
    ensures !config.allowAny && (scopeType == "http" || scopeType == "websocket") ==>
      var host := RequestHost(hostHeader);
      var matched := exists i :: 0 <= i < |config.allowedHosts| && HostMatches(host, config.allowedHosts[i]);
      var wwwListed := "www." + host in config.allowedHosts;
      && (d == Forward <==> matched)
      && (d == Redirect("www." + urlNetloc) <==> !matched && wwwListed && config.wwwRedirect)
      && (d == Reject(Problem(BadRequest, "invalid-host")) <==> !matched && !(wwwListed && config.wwwRedirect))
  {
    if config.allowAny || (scopeType != "http" && scopeType != "websocket") {
      return Forward;
    }
    var host := RequestHost(hostHeader);
    var isValidHost := false;
    var foundWwwRedirect := false;
    var i := 0;
    while i < |config.allowedHosts|
      invariant 0 <= i <= |config.allowedHosts|
      invariant !isValidHost
      invariant forall j :: 0 <= j < i ==> !HostMatches(host, config.allowedHosts[j])
      invariant foundWwwRedirect <==> "www." + host in config.allowedHosts[..i]
    {
      var pattern := config.allowedHosts[i];
      if host == pattern || (StartsWith(pattern, "*") && EndsWith(host, pattern[1..])) {
        isValidHost := true;
        break;
      }
      if "www." + host == pattern {
        foundWwwRedirect := true;
      }
      assert config.allowedHosts[..i + 1] == config.allowedHosts[..i] + [pattern];
      i := i + 1;
    }
    if isValidHost {
      return Forward;
    }
    assert config.allowedHosts[..i] == config.allowedHosts;
    if foundWwwRedirect && config.wwwRedirect {
      return Redirect("www." + urlNetloc);
    }
    return Reject(Problem(BadRequest, "invalid-host"));
  }

  /** The pattern `*` matches every host. */
  lemma {:induction false} StarMatchesAnyHost(host: string)
    ensures HostMatches(host, "*")
  {
    assert "*"[1..] == [];
    assert host[|host|..] == [];
  }

  /**
   * A wildcard `*.d` admits every subdomain `x.d` but not the bare domain `d`
   * (unless `d` itself is also listed).
   */
  lemma {:induction false} WildcardMatchesSubdomainsOnly(domain: string, sub: string)
    ensures HostMatches(sub + "." + domain, "*." + domain)
    ensures !HostMatches(domain, "*." + domain)
  {
    var pattern := "*." + domain;
    assert pattern[1..] == "." + domain;
    assert StartsWith(pattern, "*") by { assert pattern[..1] == "*"; }
    var host := sub + "." + domain;
    assert host[|host| - |"." + domain|..] == "." + domain;
    assert |pattern| > |domain|;
  }

  /** The host compared with the patterns carries no port. */
  lemma RequestHostHasNoPort(hostHeader: Option<string>)
    ensures ':' !in RequestHost(hostHeader)
    ensures hostHeader.Some? ==> StartsWith(hostHeader.value, RequestHost(hostHeader))
  {
  }
}

=== FILE: Wrappers.dfy ===
/** Option and Result, the failure-carrying values used throughout the model. */
module Wrappers {

  datatype Option<+T> = None | Some(value: T)

  datatype Result<+R, +E> = Ok(value: R) | Err(error: E)
}
